=== FILE: README.md ===
# Teamwork-to-Slack bridges, modelled in Dafny

Two small Flask services relay Teamwork helpdesk webhooks to a Slack channel:

- `teamwork_to_slack/app.py` is the bot-token bridge.
  - At start-up it asks Slack who it is (`auth.test`) and remembers its own bot ids.
  - It posts each ticket as a block message with eight labelled fields.
  - On `/clean-tickets` it deletes its own recent messages. It counts a delete only when Slack confirms it.
- `teamworkslack.py` is the incoming-webhook bridge.
  - It posts each ticket as a text message: a heading line, then the id, subject, status and assignee, one per line. A value that itself holds a line break adds lines.
  - It has a `/health` probe.
  - On `/clean-tickets` it deletes every bot message and every message of the requesting user.

This project models the decision logic of both bridges as pure Dafny functions over a `Json` value that behaves as Python does:
- truthiness and the value an `or` chain yields;
- `dict.get`, and the `AttributeError` it raises on a non-dict;
- hash equality inside a set, where `True == 1`;
- `str()`;
- the `TypeError` of iterating `None` or of looking up a dict in a set.

Every uncaught exception is an explicit `Raised(fault)` outcome, which Flask answers with 500. Outbound HTTP calls are inputs: the answer or exception each request produced. A cleanup is a fold over the channel history, and `Sweep.Run` reports:
- the deletes requested;
- the count reported back;
- the exception, if any, that ended the loop.

Modules:

| module | file | what it holds |
|---|---|---|
| `PyJson` | `pyjson.dfy` | JSON values, Python truthiness, `or`, `get`, hashing, faults |
| `PyText` | `pytext.dfy` | `str()`/`repr()`, decimal rendering, `split`/`join` |
| `Http` | `http.dfy` | outbound responses, Flask replies, and the relay tail both webhooks share |
| `Ticket` | `ticket.dfy` | finding the ticket in a payload, flattening its status |
| `Sweep` | `sweep.dfy` | the cleanup loop, the history answer, the token guard, the report |
| `BlockApp` | `block_app.dfy` | everything specific to `teamwork_to_slack/app.py` |
| `TextApp` | `text_app.dfy` | everything specific to `teamworkslack.py` |

Each cleanup pass has a reference definition. For app.py, `OwnTimestamps` and `ConfirmedOwn` give the timestamps of the known bots' messages and how many of them Slack confirms deleting. For teamworkslack.py, `SelectedTimestamps` and `AcceptedSelected` do the same for the selected messages. Two lemmas tie each pass to its reference:
- a pass that raises nothing requests exactly those deletes and reports exactly that count;
- a pass that raises partway has still requested only a prefix of those deletes, so no other channel content is ever deleted.

### Behaviour a reader might not expect

- There is no event discriminator and no 204 answer. Neither webhook looks at `event`: adding one to a non-empty body changes neither what is posted nor the answer (`BlockApp.EventIgnored`, `TextApp.EventIgnored`). An empty body `{}` is falsy and gets 400, while `{"event": e}` alone is truthy and is posted like any other body without a ticket. A sample ticket sent as "ticket.updated" is posted and answered with 200 like any other (`BlockApp.ExamplePosted`). A truthy body that is not a dict, such as a non-empty list, is not posted: `.get` on it raises AttributeError, which Flask answers with 500.
- First and last names are never joined. An agent `{"firstName": "Amy", "lastName": "Lee"}` is shown as `Amy` (`BlockApp.ExampleFields`).
- There is no static identity mapping and no live lookup by email. The assignee text comes from the payload alone.
- Missing values are not always replaced by a placeholder. Missing id, subject and status fields show `None`. In app.py a ticket with no assignee shows `None`, not "Unassigned" (`BlockApp.NoAssigneeShowsNone`).
- A body with no ticket object is not refused: a block of placeholders is posted (`BlockApp.MissingTicketIsPosted`). Only a falsy body gets 400.
- `teamworkslack.py` consults only `assignee` and `assigned_to`, and only a dict's `fullName`. A plain-string assignee shows "Unassigned" (`TextApp.StringAssigneeIsUnassigned`).
- In app.py, line 40 starts with a space before `@app.route`. Python rejects that indentation, so the module does not load as written. The model treats the decorator as if it started at column 0.

## Model

| member | source | states |
|---|---|---|
| PyJson.LookupNone | teamwork_to_slack/app.py:53-57 | a key lookup finds nothing exactly when no member has the key |
| PyJson.LookupSpec | teamwork_to_slack/app.py:53-57 | what a key lookup finds is the value of the last member with the key, as `json.loads` keeps the last of repeated keys |
| PyJson.LookupAt | teamwork_to_slack/app.py:53-55 | the last member carrying a key supplies the value `get` returns |
| PyJson.LookupMissing | teamwork_to_slack/app.py:53-55 | a key no member has is not found, so `get` yields its default |
| PyJson.LookupPrepend | teamwork_to_slack/app.py:52 | an entry placed before all others does not change the lookup of any other key |
| PyJson.GetOr | teamwork_to_slack/app.py:61-62 | `x.get(k, d)` raises AttributeError exactly when `x` is not a dict, and otherwise yields the value at `k` or `d` |
| PyJson.OrIndex | teamwork_to_slack/app.py:73-79 | an `or` chain yields its first truthy operand, or its last operand when none is truthy |
| PyJson.Or | teamwork_to_slack/app.py:82 | an `or` chain's value is truthy exactly when some operand is, and when falsy it is the last operand |
| PyJson.Key | teamwork_to_slack/app.py:214 | the representative under set hash equality keeps the value's truthiness and is never a bool |
| PyJson.KeyIsEquality | teamwork_to_slack/app.py:214 | two hashable values share a representative exactly when Python's `==` holds between them: None only with None, a string only with the same string, bools and ints as numbers |
| PyJson.Truthy | teamwork_to_slack/app.py:49 | Python's truth value of a decoded JSON value, as `if not data` tests it |
| PyJson.SameAsForm | teamworkslack.py:95 | `msg.get("user") == user_id` holds exactly when Python's `==` holds between the message's value and the form field (a string, or None when absent); a list or dict value never equals it |
| PyJson.FalsyValues | teamwork_to_slack/app.py:49 | the falsy values are exactly None, False, 0, the empty string, the empty list and the empty dict |
| PyText.NatToString | teamwork_to_slack/app.py:227 | the decimal text of a count is non-empty and all digits |
| PyText.NatToStringRoundTrip | teamwork_to_slack/app.py:227 | the decimal text of the deleted count reads back as the count |
| PyText.IntToStringRoundTrip | teamwork_to_slack/app.py:68-69 | `str()` of an int reads back as that int: its digits, or a minus sign and the digits of its magnitude |
| PyText.Show | teamwork_to_slack/app.py:96-103 | an f-string placeholder inserts a string as it is and None as `None` |
| PyText.Repr | teamwork_to_slack/app.py:96-103 | `repr` of a value is never empty; a string is quoted; a non-negative int is its decimal text and reads back as itself; a list is written in brackets and a dict in braces |
| PyText.Quote | teamwork_to_slack/app.py:96-103 | `repr` of a string is the string verbatim between two equal quotes, double quotes exactly when it holds a single quote and no double quote |
| PyText.ShowTruthyNonEmpty | teamwork_to_slack/app.py:71 | a truthy fallback value never renders as empty text |
| PyText.ShowScalarSingleLine | teamworkslack.py:60 | an id that is None, a bool or an int renders on one line |
| PyText.Split | teamworkslack.py:60 | splitting at a separator gives at least one part and no part contains the separator |
| PyText.SplitWithoutSeparator | teamworkslack.py:60 | a line without the separator splits into itself |
| PyText.SplitAtFirst | teamwork_to_slack/app.py:96-103 | a label line and its value split apart at the first line break |
| PyText.SplitJoin | teamworkslack.py:60 | joining separator-free lines and splitting the result gives the lines back |
| PyText.JoinSplit | teamworkslack.py:60 | splitting a text and joining the parts restores the text |
| Http.Pair | teamworkslack.py:32 | a two-entry reply body holds each value under its key |
| Http.Triple | teamworkslack.py:34-36 | a three-entry reply body holds each value under its key |
| Http.ResponseOk | teamworkslack.py:101 | a response is `ok` exactly when its status code is not a client or server error, 400 to 599 |
| Http.Relay | teamwork_to_slack/app.py:109-124 | a post that raised is not caught; a 200 from Slack gives 200 with the confirmation and the request's timestamp; any other code gives 500 with the error and Slack's body |
| Ticket.SelectTicket | teamwork_to_slack/app.py:52 | a truthy top-level ticket wins; otherwise the ticket under `data`, or an empty dict when missing; a non-dict body or `data` entry raises |
| Ticket.EventIgnored | teamwork_to_slack/app.py:52 | a leading `event` entry plays no part in finding the ticket |
| Ticket.FlattenStatus | teamwork_to_slack/app.py:57-59 | a dict status becomes its `name` (None when it has none); any other status is kept |
| Sweep.FirstHalt | teamwork_to_slack/app.py:206-225 | the first message whose handling raised, every earlier one having completed |
| Sweep.Run | teamwork_to_slack/app.py:204-227 | the count never exceeds the deletes requested, which never exceed the messages; the loop raises exactly the first exception among the messages |
| Sweep.RunFault | teamwork_to_slack/app.py:206-225 | the loop ends without an exception exactly when no visit raised; otherwise it raises the first raising visit's exception, having reached that visit and none after it |
| Sweep.RunStopsAtFirstHalt | teamwork_to_slack/app.py:206-225 | the deletes the loop requested are those requested by the visits up to and including the first that raised, and none after it |
| Sweep.RunRaisesFirst | teamwork_to_slack/app.py:206-225 | stated of the messages: the loop raises exactly when some message's handling raises, and then it raises the exception of the first such message |
| Sweep.VisitsPrefix | teamwork_to_slack/app.py:206 | handling the first n messages of the history gives the first n visits of handling the whole history |
| Sweep.Iterate | teamwork_to_slack/app.py:206 | `for` walks a list's items, a dict's keys or a string's characters, and raises on None, a bool or an int |
| Sweep.Messages | teamwork_to_slack/app.py:193-203 | the history's messages; a failed request, a non-JSON answer or a non-dict answer raises; a missing `messages` entry gives none; a present one is iterated as `for` does, so `null`, a bool or an int raises TypeError |
| Sweep.Report | teamwork_to_slack/app.py:227 | the confirmation is a fixed lead and tail around the count's digits, which read back as the count; teamworkslack.py:104 sends the same text |
| Sweep.Conclude | teamwork_to_slack/app.py:227 | exactly the loop's own exception is raised, otherwise the count is reported with 200 |
| BlockApp.ReportedBotId | teamwork_to_slack/app.py:27-31 | a `bot_id` is read exactly when `auth.test` answered with a JSON dict; a missing `bot_id` reads as None; a failed call, a non-JSON or a non-dict answer gives nothing, since `fetch_bot_id` catches it |
| BlockApp.KnownBots | teamwork_to_slack/app.py:24-36 | the registry is non-empty exactly when start-up got a truthy, hashable `bot_id`, and then holds that id and the legacy id; every failure leaves it empty |
| BlockApp.NameOr | teamwork_to_slack/app.py:61-62 | the name of the priority or type object, the fallback when the entry or its name is missing, and AttributeError when the entry is not a dict |
| BlockApp.AssigneeSource | teamwork_to_slack/app.py:73-79 | the first truthy of `agent`, `assignee`, `assigned_to`, `assigneeId` in that order, an empty dict if none |
| BlockApp.AssigneeText | teamwork_to_slack/app.py:81-87 | a dict shows `fullName`, else `name`, else `firstName`; a string shows itself; anything else shows "Unassigned" |
| BlockApp.Normalize | teamwork_to_slack/app.py:52-79 | the values the block shows, or the AttributeError of a body, `data`, ticket, priority or type of the wrong shape, checked in that order |
| BlockApp.ExpandZulu | teamwork_to_slack/app.py:67 | the result is the text split at every `Z` and joined with `+00:00`, which is how Python defines `replace`; it holds no `Z`, and a text without `Z` is unchanged |
| BlockApp.SlackDate | teamwork_to_slack/app.py:68-69 | Slack's date token is a fixed lead, the epoch seconds (which read back exactly from the token), the display format, and the ISO text before the closing `>` |
| BlockApp.CreatedText | teamwork_to_slack/app.py:64-71 | a parsable creation time gives Slack's date token; otherwise the raw value when truthy, else "N/A"; never empty |
| BlockApp.Compose | teamwork_to_slack/app.py:89-107 | eight fields in block order: the link, then id, status, type and priority in code marks, the subject in bold, the assignee text and the creation text |
| BlockApp.ComposeLabels | teamwork_to_slack/app.py:96-103 | each composed field sits under its own label, in block order |
| BlockApp.LabelsDistinct | teamwork_to_slack/app.py:96-103 | no two field labels are alike |
| BlockApp.FieldsReadBack | teamwork_to_slack/app.py:96-103 | each field's text splits into its label line and the value's lines, and no other field has that label |
| BlockApp.ComposedFieldsReadBack | teamwork_to_slack/app.py:96-103 | in the composed block, each field's text is its label line followed by its value, and no other field has that label |
| BlockApp.Webhook | teamwork_to_slack/app.py:46-124 | a falsy body gets 400 with nothing posted; a block is posted exactly when normalisation succeeds, to the given channel; the answer is 200 exactly when the block was posted and Slack answered 200 |
| BlockApp.PlaceholderSummary | teamwork_to_slack/app.py:52-79 | a body with no ticket reads as the placeholders General and Unknown with an empty assignee |
| BlockApp.MissingTicketIsPosted | teamwork_to_slack/app.py:49-52 | a truthy body without a ticket is not refused: a block of placeholders is posted |
| BlockApp.EventIgnored | teamwork_to_slack/app.py:46-52 | adding an `event` entry to a non-empty body changes neither what is posted nor the answer |
| BlockApp.ExampleSummary | teamwork_to_slack/app.py:52-79 | the example payload reads as id 42, subject "Printer jam", status "New" and its agent |
| BlockApp.ExampleFields | teamwork_to_slack/app.py:81-103 | the example shows its subject and status as sent and the agent's first name alone |
| BlockApp.ExamplePosted | teamwork_to_slack/app.py:46-124 | the example is posted whatever its event, and a 200 from Slack gives 200 |
| BlockApp.NoAssigneeShowsNone | teamwork_to_slack/app.py:73-87 | with no truthy assignee entry the assignee shows `None`, not "Unassigned" |
| BlockApp.WebhookShowsTicket | teamwork_to_slack/app.py:53-102 | the posted block shows the ticket's id, subject, flattened status and assignee text |
| BlockApp.IsOwn | teamwork_to_slack/app.py:214 | a message is the bridge's own when it is a dict whose `bot_id` is hashable and in the registry |
| BlockApp.OwnMeansKnownBot | teamwork_to_slack/app.py:214 | with a registry of ints and strings, a message is the bridge's own exactly when Python finds its `bot_id` equal to a registered id, so a `bot_id` of True matches a registered 1 |
| BlockApp.Confirms | teamwork_to_slack/app.py:220-222 | a delete counts when the response is `ok` and its JSON body is a dict with a truthy `ok` |
| BlockApp.Visit | teamwork_to_slack/app.py:206-225 | only a known bot's message is deleted, and its delete counts exactly when Slack confirms it; a non-dict message or an unhashable `bot_id` raises before any delete; a failed delete, a non-JSON or a non-dict delete answer raises after the delete was requested, which the visit records; each with its own exception |
| Sweep.VisitsInOrder | teamwork_to_slack/app.py:206-225 | the loop handles every history message once, in history order: the i-th step is the i-th message with the answer to its own delete |
| BlockApp.PassMatchesReference | teamwork_to_slack/app.py:206-223 | a pass that raises nothing requests the deletes of exactly the known bots' messages in order and counts exactly the confirmed ones |
| BlockApp.IssuedAreOwnPrefix | teamwork_to_slack/app.py:214-220 | even a pass that raises has requested only deletes of known bots' messages, in history order |
| BlockApp.RequestsMatchReference | teamwork_to_slack/app.py:214-220 | handled one by one, whether or not any raises, the messages request the deletes of exactly the known bots' messages, in order |
| BlockApp.IssuedStopAtFirstHalt | teamwork_to_slack/app.py:206-225 | the deletes requested are exactly those of the known bots' messages up to and including the first message whose handling raised |
| BlockApp.CleanTickets | teamwork_to_slack/app.py:177-227 | without a token it answers 403 and does nothing (a branch app.py cannot reach, see Left out); otherwise it fetches 20 messages of the channel, deletes exactly the known bots' messages and reports the confirmed count; it raises exactly when some message's handling raises, and then raises the first such message's exception, having requested the deletes of exactly the known bots' messages up to that one |
| BlockApp.NoOwnMessages | teamwork_to_slack/app.py:214 | with an empty registry no message is the bridge's own |
| BlockApp.NoBotIdDeletesNothing | teamwork_to_slack/app.py:31-33 | when start-up yields no truthy `bot_id`, a cleanup deletes nothing |
| TextApp.HealthCheck | teamworkslack.py:25-36 | the probe text is always posted; the answer is 200 "ok" exactly when the webhook answered 200, else 500 "error" with Slack's body or the exception; the timestamp is always returned |
| TextApp.ProbeMatchesReply | teamworkslack.py:27-36 | the reply's timestamp is the one in the posted probe text after its fixed heading, and whether the probe is reported "ok" depends on the webhook's answer alone |
| TextApp.AssignedTo | teamworkslack.py:56-57 | a dict from `assignee`, else `assigned_to`, shows its `fullName`; anything else shows "Unassigned" |
| TextApp.Normalize | teamworkslack.py:48-57 | the values the text shows, or the AttributeError of a body, `data` or ticket that is not a dict |
| TextApp.Text | teamworkslack.py:59-61 | whatever the values hold, the text begins with the heading line and ends with a line break and the assignee line |
| TextApp.TextLines | teamworkslack.py:59-61 | with single-line values the text is exactly five lines: the heading, then id, subject, status and assignee after their captions |
| TextApp.Webhook | teamworkslack.py:38-70 | a falsy body gets 400; the text is posted exactly when normalisation succeeds; the answer is 200 exactly when it was posted and the webhook answered 200 |
| TextApp.EventIgnored | teamworkslack.py:38-70 | adding an `event` entry to a non-empty body changes neither what is posted nor the answer |
| TextApp.StringAssigneeIsUnassigned | teamworkslack.py:56-57 | a plain-string assignee is reported as "Unassigned" |
| TextApp.Selected | teamworkslack.py:95 | a message is selected when it is a dict with a truthy `bot_id` or whose `user` equals the request's `user_id` |
| TextApp.BotMessageSelected | teamworkslack.py:95 | any bot's message is selected, whoever asked |
| TextApp.UserMessageSelected | teamworkslack.py:95 | a message without a bot id is selected exactly when its `user` is the requesting user's id |
| TextApp.AnonymousMessageSelected | teamworkslack.py:95 | a message with neither `bot_id` nor `user` is deleted by a request without `user_id` |
| TextApp.Visit | teamworkslack.py:94-102 | a message is deleted exactly when it has a truthy `bot_id` or is the requesting user's, and its delete counts exactly when Slack answers with an HTTP success; a non-dict message raises before any delete, and a failed delete raises after the delete was requested, which the visit records; each with its own exception |
| TextApp.PassMatchesReference | teamworkslack.py:94-102 | a pass that raises nothing requests exactly the selected deletes in order and counts exactly the accepted ones |
| TextApp.IssuedAreSelectedPrefix | teamworkslack.py:95-100 | even a pass that raises has requested only deletes of selected messages, in history order |
| TextApp.RequestsMatchReference | teamworkslack.py:95-100 | handled one by one, whether or not any raises, the messages request exactly the selected deletes, in order |
| TextApp.IssuedStopAtFirstHalt | teamworkslack.py:94-100 | the deletes requested are exactly those of the selected messages up to and including the first message whose handling raised |
| TextApp.CleanTickets | teamworkslack.py:72-104 | without a token it answers 403 and does nothing; otherwise it fetches 20 messages, deletes exactly the selected ones and reports the accepted count; it raises exactly when some message's handling raises, and then raises the first such message's exception, having requested exactly the selected deletes up to that one |

## Left out

- Configuration loading and the start-up `RuntimeError` for a missing token or webhook URL (teamwork_to_slack/app.py:13-19, teamworkslack.py:13-17). This is process set-up, not request logic. The token guards inside the cleanup handlers are modelled. In app.py the guard at lines 181-182 can never fire, because the module already raised at lines 18-19 when the token is missing; `BlockApp.CleanTickets` models the guard as written. In teamworkslack.py only the webhook URL is required at start-up, so its guard at lines 74-75 is live.
- The `/` route of teamworkslack.py:19-23. It answers a POST with a fixed 405 reply and a GET with fixed text; neither depends on the request's content.
- teamwork_to_slack/app.py:126-175 is not modelled. These lines are an older text composer placed after the webhook's final `return`, so they never run.
- Logging. The `print` calls are not modelled. The one exception is `response_json.get("error")` inside the print at app.py:225, because it can raise; it is kept in `BlockApp.Visit`.
- URLs, headers and authentication of the outbound requests. Each request's answer, or its exception, is an input (`Call`).
- `request.get_json()` on a body that is not JSON. Flask answers it before the handler's logic runs, so the model takes the decoded body as its input.
- The clock. `datetime.utcnow().isoformat()` is an input `timestamp`.
- ISO-8601 parsing and the local time zone. `datetime.fromisoformat(...).astimezone(...)` is an input `parse`, which either fails or gives the epoch seconds and the ISO text.
- The `latest_channel_id` global of app.py. It starts as the configured channel and each cleanup overwrites it. `BlockApp.Webhook` takes the channel as a parameter, and a cleanup's target channel is visible as its `query`.
- The acting `user_id` in app.py. It is read but never used, so it is not an input.
- JSON floats. `Json` has no float, so three behaviours are not modelled. A float's truth value feeds `not data` and the `or` chains (app.py:49, 73-79, 82; teamworkslack.py:45, 56, 95), where 0.0 is falsy. A float `bot_id` takes part in set membership at app.py:214, where `1.0 == 1 == True`. A float is rendered into the posted text by Python's shortest round-trip float formatting. Modelling IEEE-754 doubles and that formatting is out of proportion to two request handlers.
- PyText.Repr: does not escape backslashes, quotes inside strings, or control and non-printable characters as Python's `repr` does. It only chooses the enclosing quotes. Dict and list values appear in the text only through `str()`. A dict with a repeated key is printed with both members, `{'a': 1, 'a': 2}`, whereas the dict Python builds keeps one entry, `{'a': 2}`.
- Sweep.Iterate: yields a repeated dict key twice, where the dict Python builds holds it once. No reader can see this: the first key is already a string, and `msg.get` on it raises.
- BlockApp.KnownBots: states the registry only after the single start-up call. A later re-run of `fetch_bot_id` is not modelled, because the module calls it once.

=== FILE: block_app.dfy ===
/** The Slack-API bridge of teamwork_to_slack/app.py: it learns its own bot
    identity at start-up, relays each ticket webhook as a two-section block
    message, and on request deletes its own recent messages from a channel. */
module BlockApp {
  import opened PyJson
  import opened PyText
  import opened Http
  import Ticket
  import Sweep

  // ---------------------------------------------------------------------
  // Bot provenance registry (`fetch_bot_id`)
  // ---------------------------------------------------------------------

  /** The earlier bot identity kept next to the live one. */
  const LegacyBotId := "B08QQESME15"

  /** The `bot_id` of the self-identification answer, when the answer
      arrived, was JSON and was a dict, so that `result.get` did not raise. */
  function ReportedBotId(auth: Call): (r: Option<Json>)
    ensures r.Some? <==> auth.Answered? && auth.response.json.Some? && auth.response.json.value.Obj?
    ensures r.Some? && Has(auth.response.json.value, "bot_id") ==>
      Lookup(auth.response.json.value.members, "bot_id") == Some(r.value)
    ensures r.Some? && !Has(auth.response.json.value, "bot_id") ==> r.value == Null
  {
    match auth
    case Failed(_) => None
    case Answered(resp) =>
      match resp.json
      case Some(result) => if result.Obj? then Some(At(result, "bot_id")) else None
      case None => None
  }

  /** `KNOWN_BOT_IDS` after start-up, under Python's hash equality: the live
      identity and the legacy one when a usable `bot_id` came back, empty
      otherwise, since every failure is caught and only logged. A dict or
      list `bot_id` cannot go into a set, and that TypeError is caught too. */
  function KnownBots(auth: Call): (known: set<Json>)
    ensures known != {} <==>
      ReportedBotId(auth).Some? && Truthy(ReportedBotId(auth).value) && Hashable(ReportedBotId(auth).value)
    ensures known != {} ==> known == {Key(ReportedBotId(auth).value), Str(LegacyBotId)}
    ensures forall k :: k in known ==> Truthy(k) && (k.Int? || k.Str?)
  {
    match ReportedBotId(auth)
    case Some(id) => if Truthy(id) && Hashable(id) then {Key(id), Str(LegacyBotId)} else {}
    case None => {}
  }

  // ---------------------------------------------------------------------
  // Ticket normalisation (`teamwork_webhook`, lines 49-87)
  // ---------------------------------------------------------------------

  /** `ticket.get(key, {}).get("name", fallback)`: the name of the object
      under `key`, the fallback when the key or the name is missing, and an
      AttributeError when the value under `key` is not a dict. */
  function NameOr(ticket: Json, key: string, fallback: string): (r: Result<Json>)
    requires ticket.Obj?
    ensures !Has(ticket, key) ==> r == Ok(Str(fallback))
    ensures Has(ticket, key) && !At(ticket, key).Obj? ==> r == Err(NoGet(At(ticket, key)))
    ensures Has(ticket, key) && At(ticket, key).Obj? && !Has(At(ticket, key), "name") ==>
      r == Ok(Str(fallback))
    ensures Has(ticket, key) && Has(At(ticket, key), "name") ==>
      r.Ok? && Lookup(At(ticket, key).members, "name") == Some(r.value)
  {
    GetOr(AtOr(ticket, key, Ticket.Empty), "name", Str(fallback))
  }

  /** The keys consulted for the assignee, highest precedence first. */
  const AssigneeKeys := ["agent", "assignee", "assigned_to", "assigneeId"]

  /** `ticket.get("agent") or ticket.get("assignee") or
      ticket.get("assigned_to") or ticket.get("assigneeId") or {}`:
      the first truthy entry in precedence order, an empty dict if none. */
  function AssigneeSource(ticket: Json): (r: Json)
    ensures forall i :: 0 <= i < |AssigneeKeys| ==>
      (Truthy(At(ticket, AssigneeKeys[i])) &&
       (forall j :: 0 <= j < i ==> !Truthy(At(ticket, AssigneeKeys[j]))))
      ==> r == At(ticket, AssigneeKeys[i])
    ensures (forall i :: 0 <= i < |AssigneeKeys| ==> !Truthy(At(ticket, AssigneeKeys[i]))) ==>
      r == Ticket.Empty
  {
    var xs := [At(ticket, "agent"), At(ticket, "assignee"), At(ticket, "assigned_to"),
               At(ticket, "assigneeId"), Ticket.Empty];
    var k := OrIndex(xs);
    assert forall i :: 0 <= i < |AssigneeKeys| ==> xs[i] == At(ticket, AssigneeKeys[i]);
    xs[k]
  }

  /** The text under "Assigned To". A dict gives its `fullName`, else its
      `name`, else its `firstName` (the first truthy one; `firstName` as it
      is, None included, when none is); a string gives itself; any other
      value, such as a numeric id, gives "Unassigned". */
  function AssigneeText(a: Json): (r: string)
    ensures a.Obj? && Truthy(At(a, "fullName")) ==> r == Show(At(a, "fullName"))
    ensures a.Obj? && !Truthy(At(a, "fullName")) && Truthy(At(a, "name")) ==>
      r == Show(At(a, "name"))
    ensures a.Obj? && !Truthy(At(a, "fullName")) && !Truthy(At(a, "name")) ==>
      r == Show(At(a, "firstName"))
    ensures a.Str? ==> r == a.s
    ensures !a.Obj? && !a.Str? ==> r == "Unassigned"
  {
    match a
    case Obj(_) =>
      var names := [At(a, "fullName"), At(a, "name"), At(a, "firstName")];
      var k := OrIndex(names);
      assert Truthy(names[0]) ==> k == 0;
      assert Truthy(names[1]) ==> k <= 1;
      Show(names[k])
    case Str(s) => s
    case _ => "Unassigned"
  }

  /** What the webhook reads from the ticket, before any rendering. */
  datatype Summary = Summary(
    link: Json, id: Json, subject: Json, status: Json,
    kind: Json, priority: Json, createdAt: Json, assignee: Json)

  /** The ticket's summary, or the AttributeError a wrongly shaped body
      raises: a body, `data` entry or ticket that is not a dict, or a
      priority or type that is not a dict, checked in that order. */
  function Normalize(body: Json): (r: Result<Summary>)
    ensures Ticket.SelectTicket(body).Err? ==> r == Err(Ticket.SelectTicket(body).fault)
    ensures Ticket.SelectTicket(body).Ok? ==>
      var t := Ticket.SelectTicket(body).value;
      && (!t.Obj? ==> r == Err(NoGet(t)))
      && (t.Obj? ==>
            && (r.Ok? <==> NameOr(t, "priority", "Unknown").Ok? && NameOr(t, "type", "General").Ok?)
            && (NameOr(t, "priority", "Unknown").Err? ==> r == Err(NameOr(t, "priority", "Unknown").fault))
            && (NameOr(t, "priority", "Unknown").Ok? && NameOr(t, "type", "General").Err? ==>
                  r == Err(NameOr(t, "type", "General").fault))
            && (r.Ok? ==>
                  r.value == Summary(
                    At(t, "link"), At(t, "id"), At(t, "subject"),
                    Ticket.FlattenStatus(At(t, "status")),
                    NameOr(t, "type", "General").value,
                    NameOr(t, "priority", "Unknown").value,
                    At(t, "createdAt"), AssigneeSource(t))))
  {
    var t :- Ticket.SelectTicket(body);
    if !t.Obj? then Err(NoGet(t))
    else
      var priority :- NameOr(t, "priority", "Unknown");
      var kind :- NameOr(t, "type", "General");
      Ok(Summary(At(t, "link"), At(t, "id"), At(t, "subject"),
                 Ticket.FlattenStatus(At(t, "status")), kind, priority,
                 At(t, "createdAt"), AssigneeSource(t)))
  }

  // ---------------------------------------------------------------------
  // Creation time (`teamwork_webhook`, lines 64-71)
  // ---------------------------------------------------------------------

  /** A parsed creation time converted to local time: its whole seconds
      since the epoch and its ISO-8601 text. */
  datatype Moment = Moment(epoch: int, iso: string)

  /** `s.replace("Z", "+00:00")`: every Z becomes an explicit UTC offset. */
  function ExpandZulu(s: string): (r: string)
    ensures r == Join(Split(s, 'Z'), "+00:00")
    ensures 'Z' !in r
    ensures 'Z' !in s ==> r == s
    ensures |r| >= |s|
    decreases |s|
  {
    if |s| == 0 then ""
    else
      var rest := ExpandZulu(s[1..]);
      var parts := Split(s[1..], 'Z');
      assert 'Z' !in s ==> [s[0]] + s[1..] == s;
      if s[0] == 'Z' then
        assert Join([""] + parts, "+00:00") == "" + "+00:00" + Join(parts, "+00:00") by {
          assert ([""] + parts)[1..] == parts;
        }
        "+00:00" + rest
      else
        JoinExtendFirst(s[0], parts, "+00:00");
        [s[0]] + rest
  }

  const DateLead := "<!date^"
  const DateFormat := "^{date_short_pretty} at {time}|"

  /** Slack's date token for a parsed moment, shown in the reader's time
      zone: the epoch seconds after a fixed lead, read back exactly from the
      token, then the display format, then the ISO text as the fallback. */
  function SlackDate(m: Moment): (r: string)
    ensures var tail := m.iso + ">";
      && |r| > |DateLead| + |DateFormat| + |tail|
      && r[..|DateLead|] == DateLead
      && r[|r| - |tail|..] == tail
      && r[|r| - |tail| - |DateFormat|..|r| - |tail|] == DateFormat
      && var d := r[|DateLead|..|r| - |tail| - |DateFormat|];
         |d| > 0 && ReadsBackAs(d, m.epoch)
  {
    var d := IntToString(m.epoch);
    ConcatParts(DateLead, d, DateFormat, m.iso + ">");
    IntToStringRoundTrip(m.epoch);
    DateLead + d + DateFormat + (m.iso + ">")
  }

  /** The text under "Created". A string `createdAt` that `parse` accepts
      (after the Z expansion) gives Slack's date token; otherwise the raw
      value when truthy, else "N/A". Never empty, never raises. */
  function CreatedText(createdAt: Json, parse: string -> Option<Moment>): (r: string)
    ensures createdAt.Str? && parse(ExpandZulu(createdAt.s)).Some? ==>
      r == SlackDate(parse(ExpandZulu(createdAt.s)).value)
    ensures !(createdAt.Str? && parse(ExpandZulu(createdAt.s)).Some?) && Truthy(createdAt) ==>
      r == Show(createdAt)
    ensures !(createdAt.Str? && parse(ExpandZulu(createdAt.s)).Some?) && !Truthy(createdAt) ==>
      r == "N/A"
    ensures |r| > 0
  {
    if createdAt.Str? && parse(ExpandZulu(createdAt.s)).Some? then
      SlackDate(parse(ExpandZulu(createdAt.s)).value)
    else if Truthy(createdAt) then
      ShowTruthyNonEmpty(createdAt);
      Show(createdAt)
    else "N/A"
  }

  // ---------------------------------------------------------------------
  // Block composition (`teamwork_webhook`, lines 89-107)
  // ---------------------------------------------------------------------

  /** One `mrkdwn` field of the block: a bold label line and its value. */
  datatype Field = Field(title: string, value: string)

  /** The field's text as sent: the label, a line break, the value. */
  function FieldText(f: Field): string {
    f.title + "\n" + f.value
  }

  const Heading := ":admission_tickets: *New Ticket Received*"

  const LinkLabel := "*\U{1F517} Link:*"
  const IdLabel := "*\U{1F194} ID:*"
  const SubjectLabel := "*\U{1F4CC} Subject:*"
  const StatusLabel := "*\U{1F4CA} Status:*"
  const TypeLabel := "*\U{1F3F7}\U{FE0F} Type:*"
  const PriorityLabel := "*\U{1F6A8} Priority:*"
  const AssigneeLabel := "*\U{1F64B} Assigned To:*"
  const CreatedLabel := "*\U{1F552} Created:*"

  /** The field labels, in the order the block lists them. */
  const Labels := [LinkLabel, IdLabel, SubjectLabel, StatusLabel,
                   TypeLabel, PriorityLabel, AssigneeLabel, CreatedLabel]

  function Code(s: string): string { "`" + s + "`" }
  function LinkTo(url: string): string { "<" + url + "|View Ticket>" }
  function Bold(s: string): string { "*" + s + "*" }

  /** The first four fields: where the ticket is and what it is about. */
  function TicketFields(s: Summary): (fields: seq<Field>)
    ensures |fields| == 4
    ensures fields[0].value == LinkTo(Show(s.link))
    ensures fields[1].value == Code(Show(s.id))
    ensures fields[2].value == Bold(Show(s.subject))
    ensures fields[3].value == Code(Show(s.status))
  {
    [Field(LinkLabel, LinkTo(Show(s.link))),
     Field(IdLabel, Code(Show(s.id))),
     Field(SubjectLabel, Bold(Show(s.subject))),
     Field(StatusLabel, Code(Show(s.status)))]
  }

  /** The last four fields: how it is classed, who has it, and when it came. */
  function TriageFields(s: Summary, parse: string -> Option<Moment>): (fields: seq<Field>)
    ensures |fields| == 4
    ensures fields[0].value == Code(Show(s.kind))
    ensures fields[1].value == Code(Show(s.priority))
    ensures fields[2].value == AssigneeText(s.assignee)
    ensures fields[3].value == CreatedText(s.createdAt, parse)
  {
    [Field(TypeLabel, Code(Show(s.kind))),
     Field(PriorityLabel, Code(Show(s.priority))),
     Field(AssigneeLabel, AssigneeText(s.assignee)),
     Field(CreatedLabel, CreatedText(s.createdAt, parse))]
  }

  /** The block's fields: link, id, subject, status, type, priority,
      assignee and creation time, in that order, each under its label. */
  function Compose(s: Summary, parse: string -> Option<Moment>): (fields: seq<Field>)
    ensures |fields| == 8
    ensures fields[0].value == LinkTo(Show(s.link))
    ensures fields[1].value == Code(Show(s.id))
    ensures fields[2].value == Bold(Show(s.subject))
    ensures fields[3].value == Code(Show(s.status))
    ensures fields[4].value == Code(Show(s.kind))
    ensures fields[5].value == Code(Show(s.priority))
    ensures fields[6].value == AssigneeText(s.assignee)
    ensures fields[7].value == CreatedText(s.createdAt, parse)
  {
    TicketFields(s) + TriageFields(s, parse)
  }

  /** No two labels are alike: each starts with its own emoji. */
  lemma LabelsDistinct()
    ensures forall i, j :: 0 <= i < j < |Labels| ==> Labels[i] != Labels[j]
  {
    var marks := seq(|Labels|, k requires 0 <= k < |Labels| => Labels[k][1]);
    assert marks == ['\U{1F517}', '\U{1F194}', '\U{1F4CC}', '\U{1F4CA}',
                     '\U{1F3F7}', '\U{1F6A8}', '\U{1F64B}', '\U{1F552}'];
  }

  /** Each field sits under its own label, in block order. */
  lemma ComposeLabels(s: Summary, parse: string -> Option<Moment>)
    ensures forall i :: 0 <= i < |Labels| ==> Compose(s, parse)[i].title == Labels[i]
  {
  }

  /** A reader finds every value by its label: a field's text splits into
      the label line followed by the value's own lines, and no other field
      carries the same label. */
  lemma FieldsReadBack(fields: seq<Field>, i: nat)
    requires |fields| == |Labels| && i < |fields|
    requires forall k :: 0 <= k < |fields| ==> fields[k].title == Labels[k]
    ensures Split(FieldText(fields[i]), '\n') == [fields[i].title] + Split(fields[i].value, '\n')
    ensures forall j :: 0 <= j < |fields| && j != i ==> fields[j].title != fields[i].title
  {
    LabelsDistinct();
    assert '\n' !in Labels[i] by {
      assert '\n' !in LinkLabel && '\n' !in IdLabel && '\n' !in SubjectLabel && '\n' !in StatusLabel;
      assert '\n' !in TypeLabel && '\n' !in PriorityLabel && '\n' !in AssigneeLabel && '\n' !in CreatedLabel;
    }
    SplitAtFirst(Labels[i], '\n', fields[i].value);
  }

  /** The composed block reads back: field i's text is its label line, then
      its value, and the label is found nowhere else. */
  lemma ComposedFieldsReadBack(s: Summary, parse: string -> Option<Moment>, i: nat)
    requires i < |Labels|
    ensures var fields := Compose(s, parse);
      && Split(FieldText(fields[i]), '\n') == [Labels[i]] + Split(fields[i].value, '\n')
      && forall j :: 0 <= j < |fields| && j != i ==> fields[j].title != Labels[i]
  {
    ComposeLabels(s, parse);
    FieldsReadBack(Compose(s, parse), i);
  }

  // ---------------------------------------------------------------------
  // The webhook handler (`teamwork_webhook`, lines 46-124)
  // ---------------------------------------------------------------------

  /** The `chat.postMessage` payload: channel, a heading section and the
      field section. */
  datatype BlockMessage = BlockMessage(channel: Option<string>, heading: string, fields: seq<Field>)

  /** One webhook request. A falsy body is refused with 400 before anything
      is posted; a wrongly shaped one raises before anything is posted;
      otherwise the block is posted to `channel` and chat's answer relayed.
      `parse` stands for the ISO-8601 parse and local-time conversion,
      `post` for chat's answer to the post. */
  function Webhook(body: Json, channel: Option<string>, parse: string -> Option<Moment>,
                   post: Call, timestamp: string): (r: Exchange<BlockMessage>)
    ensures !Truthy(body) ==> r == Exchange(None, Replied(InvalidPayload))
    ensures Truthy(body) ==> (r.posted.Some? <==> Normalize(body).Ok?)
    ensures Truthy(body) && Normalize(body).Err? ==> r.outcome == Raised(Normalize(body).fault)
    ensures r.posted.Some? ==>
      && r.posted.value.channel == channel
      && r.posted.value.heading == Heading
      && r.posted.value.fields == Compose(Normalize(body).value, parse)
      && r.outcome == Relay(post, timestamp)
    ensures StatusCode(r.outcome) == 200 <==>
      r.posted.Some? && post.Answered? && post.response.code == 200
  {
    if !Truthy(body) then Exchange(None, Replied(InvalidPayload))
    else
      match Normalize(body)
      case Err(f) => Exchange(None, Raised(f))
      case Ok(s) =>
        Exchange(Some(BlockMessage(channel, Heading, Compose(s, parse))), Relay(post, timestamp))
  }

  /** What the webhook reads when the body holds no ticket: nothing but
      the type and priority placeholders, and the empty dict as assignee. */
  lemma PlaceholderSummary(body: Json)
    requires body.Obj? && !Truthy(At(body, "ticket")) && !Has(body, "data")
    ensures Normalize(body) ==
      Ok(Summary(Null, Null, Null, Null, Str("General"), Str("Unknown"), Null, Ticket.Empty))
  {
    var e := Ticket.Empty;
    assert Ticket.SelectTicket(body) == Ok(e);
    assert AssigneeSource(e) == e by {
      assert forall i :: 0 <= i < |AssigneeKeys| ==> !Truthy(At(e, AssigneeKeys[i]));
    }
  }

  /** A body with no ticket anywhere is not refused: the empty dict stands
      in for the ticket, and a block of placeholders is posted. */
  lemma MissingTicketIsPosted(body: Json, channel: Option<string>, parse: string -> Option<Moment>,
                              post: Call, timestamp: string)
    requires body.Obj? && Truthy(body)
    requires !Truthy(At(body, "ticket")) && !Has(body, "data")
    ensures var r := Webhook(body, channel, parse, post, timestamp);
      && r.posted.Some?
      && r.outcome == Relay(post, timestamp)
      && r.posted.value.fields[1].value == Code("None")
      && r.posted.value.fields[4].value == Code("General")
      && r.posted.value.fields[5].value == Code("Unknown")
      && r.posted.value.fields[6].value == "None"
      && r.posted.value.fields[7].value == "N/A"
  {
    PlaceholderSummary(body);
    NoAssigneeShowsNone(Ticket.Empty);
    var s := Summary(Null, Null, Null, Null, Str("General"), Str("Unknown"), Null, Ticket.Empty);
    var fields := Compose(s, parse);
    assert Webhook(body, channel, parse, post, timestamp)
        == Exchange(Some(BlockMessage(channel, Heading, fields)), Relay(post, timestamp));
  }

  /** The body's `event` entry is never consulted: adding one in front of
      a non-empty body changes neither what is posted nor the answer, so a
      "ticket.updated" event is relayed like a creation. */
  lemma EventIgnored(event: Json, ms: seq<Member>, channel: Option<string>,
                     parse: string -> Option<Moment>, post: Call, timestamp: string)
    requires |ms| > 0
    ensures Webhook(Obj([Member("event", event)] + ms), channel, parse, post, timestamp)
         == Webhook(Obj(ms), channel, parse, post, timestamp)
  {
    var body := Obj([Member("event", event)] + ms);
    Ticket.EventIgnored(event, ms);
    assert Truthy(body) && Truthy(Obj(ms));
    assert Normalize(body) == Normalize(Obj(ms));
  }

  /** The creation example: ticket 42, "Printer jam", status "New", with an
      agent who has a first and a last name but no `fullName`. */
  const ExampleAgent := Obj([Member("firstName", Str("Amy")), Member("lastName", Str("Lee"))])
  const ExampleTicket := Obj([Member("id", Int(42)), Member("subject", Str("Printer jam")),
                              Member("status", Obj([Member("name", Str("New"))])),
                              Member("agent", ExampleAgent)])

  function ExampleBody(event: string): Json {
    Obj([Member("event", Str(event)), Member("ticket", ExampleTicket)])
  }

  /** What the webhook reads from the example: the status flattened to its
      name, the placeholder type and priority, and the agent. */
  lemma ExampleSummary(event: string)
    ensures Normalize(ExampleBody(event)) ==
      Ok(Summary(Null, Int(42), Str("Printer jam"), Str("New"),
                 Str("General"), Str("Unknown"), Null, ExampleAgent))
  {
    var ticket := ExampleTicket;
    var body := ExampleBody(event);
    var tm := ticket.members;
    LookupAt(body.members, 1, "ticket");
    assert Ticket.SelectTicket(body) == Ok(ticket);
    LookupAt(tm, 0, "id");
    LookupAt(tm, 1, "subject");
    LookupAt(tm, 2, "status");
    LookupAt(tm, 3, "agent");
    LookupAt(tm[2].value.members, 0, "name");
    LookupMissing(tm, "priority");
    LookupMissing(tm, "type");
    LookupMissing(tm, "link");
    LookupMissing(tm, "createdAt");
    assert AssigneeSource(ticket) == ExampleAgent;
  }

  /** The example's fields: the subject and status as sent, and the agent's
      first name alone, its last name dropped. */
  lemma ExampleFields(parse: string -> Option<Moment>)
    ensures var fields := Compose(Summary(Null, Int(42), Str("Printer jam"), Str("New"),
                                          Str("General"), Str("Unknown"), Null, ExampleAgent), parse);
      && fields[2].value == Bold("Printer jam")
      && fields[3].value == Code("New")
      && fields[6].value == "Amy"
  {
    var agent := ExampleAgent;
    LookupMissing(agent.members, "fullName");
    LookupMissing(agent.members, "name");
    LookupAt(agent.members, 0, "firstName");
  }

  /** The example is posted whatever its event, "ticket.updated" included,
      and a 200 from chat gives a 200 answer. */
  lemma ExamplePosted(event: string, channel: Option<string>, parse: string -> Option<Moment>,
                      timestamp: string)
    ensures var r := Webhook(ExampleBody(event), channel, parse, Answered(Response(200, "ok", None)), timestamp);
      && r.posted.Some?
      && r.posted.value.fields[1].value == Code(Show(Int(42)))
      && r.posted.value.fields[2].value == Bold("Printer jam")
      && r.posted.value.fields[3].value == Code("New")
      && r.posted.value.fields[6].value == "Amy"
      && StatusCode(r.outcome) == 200
  {
    ExampleSummary(event);
    ExampleFields(parse);
  }

  /** With no truthy assignee entry, the empty dict takes the dict branch:
      its missing `firstName` renders as "None", not as "Unassigned". */
  lemma NoAssigneeShowsNone(ticket: Json)
    requires ticket.Obj?
    requires forall i :: 0 <= i < |AssigneeKeys| ==> !Truthy(At(ticket, AssigneeKeys[i]))
    ensures AssigneeText(AssigneeSource(ticket)) == "None"
  {
    var e := Ticket.Empty;
    assert AssigneeSource(ticket) == e;
    assert !Has(e, "fullName") && !Has(e, "name") && !Has(e, "firstName");
  }

  /** The posted block shows the ticket's own values: its id, subject and
      flattened status verbatim between the field decorations, and its
      assignee text from the first truthy assignee entry. */
  lemma WebhookShowsTicket(body: Json, channel: Option<string>, parse: string -> Option<Moment>,
                           post: Call, timestamp: string, ticket: Json)
    requires Truthy(body) && Ticket.SelectTicket(body) == Ok(ticket) && ticket.Obj?
    requires !Has(ticket, "priority") || At(ticket, "priority").Obj?
    requires !Has(ticket, "type") || At(ticket, "type").Obj?
    ensures var r := Webhook(body, channel, parse, post, timestamp);
      && r.posted.Some?
      && r.posted.value.fields[1].value == Code(Show(At(ticket, "id")))
      && r.posted.value.fields[2].value == Bold(Show(At(ticket, "subject")))
      && r.posted.value.fields[3].value == Code(Show(Ticket.FlattenStatus(At(ticket, "status"))))
      && r.posted.value.fields[6].value == AssigneeText(AssigneeSource(ticket))
  {
    assert NameOr(ticket, "priority", "Unknown").Ok?;
    assert NameOr(ticket, "type", "General").Ok?;
  }

  // ---------------------------------------------------------------------
  // Cleanup (`clean_tickets`, lines 177-227)
  // ---------------------------------------------------------------------

  /** `msg.get("bot_id") in KNOWN_BOT_IDS`, for a message whose `bot_id`
      can be looked up in a set. */
  predicate IsOwn(msg: Json, known: set<Json>) {
    msg.Obj? && Hashable(At(msg, "bot_id")) && Key(At(msg, "bot_id")) in known
  }

  /** With the registry holding ints and strings only, as `KnownBots`
      ensures, a message is the bridge's own exactly when its `bot_id` is
      hashable and Python finds it equal to some registered id: `in` on a
      set is tested by hash equality, so a bool `bot_id` True matches a
      registered 1. */
  lemma OwnMeansKnownBot(msg: Json, known: set<Json>)
    requires msg.Obj? && Hashable(At(msg, "bot_id"))
    requires forall k :: k in known ==> k.Int? || k.Str?
    ensures IsOwn(msg, known) <==> exists k :: k in known && PyEq(At(msg, "bot_id"), k)
  {
    var id := At(msg, "bot_id");
    if IsOwn(msg, known) {
      KeyIsEquality(id, Key(id));
      assert Key(id) in known && PyEq(id, Key(id));
    }
    if k :| k in known && PyEq(id, k) {
      KeyIsEquality(id, k);
      assert Key(k) == k;
    }
  }

  /** The delete answer the bridge counts: an HTTP success whose JSON body
      has a truthy `ok`. */
  predicate Confirms(delete: Call) {
    && delete.Answered? && ResponseOk(delete.response)
    && delete.response.json.Some? && delete.response.json.value.Obj?
    && Truthy(At(delete.response.json.value, "ok"))
  }

  /** Handling one message, given chat's answer to its delete should one be
      requested. Only a message of a known bot is deleted; the delete
      counts exactly when chat confirms it. The handler raises on a message
      that is not a dict, on a dict or list `bot_id`, and, after requesting
      the delete, when the request fails or its answer is not a JSON dict
      (its `ok` is read on success and its `error` is logged on failure). */
  function Visit(msg: Json, known: set<Json>, delete: Call): (v: Sweep.Visit)
    ensures !v.Halted? ==> (v.Deleted? <==> IsOwn(msg, known))
    ensures v.Deleted? ==> v.ts == At(msg, "ts") && (v.counted <==> Confirms(delete))
    ensures v.Halted? && v.issued.Some? ==> IsOwn(msg, known) && v.issued.value == At(msg, "ts")
    ensures v.Halted? <==>
      || !msg.Obj?
      || !Hashable(At(msg, "bot_id"))
      || (IsOwn(msg, known) &&
          !(delete.Answered? && delete.response.json.Some? && delete.response.json.value.Obj?))
    ensures v.Halted? ==> (v.issued.Some? <==> IsOwn(msg, known))
    ensures !msg.Obj? ==> v == Sweep.Halted(None, NoGet(msg))
    ensures msg.Obj? && !Hashable(At(msg, "bot_id")) ==> v == Sweep.Halted(None, Unhashable(At(msg, "bot_id")))
    ensures IsOwn(msg, known) && delete.Failed? ==> v == Sweep.Halted(Some(At(msg, "ts")), Unreachable(delete.reason))
    ensures IsOwn(msg, known) && delete.Answered? && delete.response.json.None? ==>
      v == Sweep.Halted(Some(At(msg, "ts")), NotJson)
    ensures IsOwn(msg, known) && delete.Answered? && delete.response.json.Some? && !delete.response.json.value.Obj? ==>
      v == Sweep.Halted(Some(At(msg, "ts")), NoGet(delete.response.json.value))
  {
    if !msg.Obj? then Sweep.Halted(None, NoGet(msg))
    else
      var botId := At(msg, "bot_id");
      if !Hashable(botId) then Sweep.Halted(None, Unhashable(botId))
      else if Key(botId) !in known then Sweep.Skipped
      else
        var ts := At(msg, "ts");
        match delete
        case Failed(reason) => Sweep.Halted(Some(ts), Unreachable(reason))
        case Answered(resp) =>
          match resp.json
          case None => Sweep.Halted(Some(ts), NotJson)
          case Some(answer) =>
            if answer.Obj? then Sweep.Deleted(ts, ResponseOk(resp) && Truthy(At(answer, "ok")))
            else Sweep.Halted(Some(ts), NoGet(answer))
  }

  /** This bridge's handling of one message, as a step of the loop. */
  function Step(known: set<Json>): (Json, Call) -> Sweep.Visit {
    (m: Json, c: Call) => Visit(m, known, c)
  }

  /** Reference: the timestamps of the known bots' messages, in order. */
  function OwnTimestamps(msgs: seq<Json>, known: set<Json>): seq<Json>
    decreases |msgs|
  {
    if |msgs| == 0 then []
    else (if IsOwn(msgs[0], known) then [At(msgs[0], "ts")] else []) + OwnTimestamps(msgs[1..], known)
  }

  /** Reference: how many known-bot messages chat confirms deleting. */
  function ConfirmedOwn(msgs: seq<Json>, known: set<Json>, respond: nat -> Call, from: nat): nat
    decreases |msgs|
  {
    if |msgs| == 0 then 0
    else (if IsOwn(msgs[0], known) && Confirms(respond(from)) then 1 else 0)
         + ConfirmedOwn(msgs[1..], known, respond, from + 1)
  }

  /** A pass that raises nothing requests the delete of exactly the known
      bots' messages, in history order, and counts exactly those chat
      confirmed. */
  lemma {:induction false} PassMatchesReference(msgs: seq<Json>, known: set<Json>, respond: nat -> Call, from: nat)
    ensures var t := Sweep.Run(Sweep.Visits(msgs, Step(known), respond, from));
      t.fault.None? ==>
        t.issued == OwnTimestamps(msgs, known) && t.deleted == ConfirmedOwn(msgs, known, respond, from)
    decreases |msgs|
  {
    if |msgs| > 0 {
      PassMatchesReference(msgs[1..], known, respond, from + 1);
      var vs := Sweep.Visits(msgs, Step(known), respond, from);
      assert vs[1..] == Sweep.Visits(msgs[1..], Step(known), respond, from + 1);
    }
  }

  /** Even in a pass that raises, the deletes requested are the first of
      the known bots' messages, in history order: no other channel content
      is ever deleted. */
  lemma {:induction false} IssuedAreOwnPrefix(msgs: seq<Json>, known: set<Json>, respond: nat -> Call, from: nat)
    ensures Sweep.Run(Sweep.Visits(msgs, Step(known), respond, from)).issued <= OwnTimestamps(msgs, known)
    decreases |msgs|
  {
    if |msgs| > 0 {
      IssuedAreOwnPrefix(msgs[1..], known, respond, from + 1);
      var vs := Sweep.Visits(msgs, Step(known), respond, from);
      var v := Visit(msgs[0], known, respond(from));
      assert vs[0] == v && vs[1..] == Sweep.Visits(msgs[1..], Step(known), respond, from + 1);
      var head := if IsOwn(msgs[0], known) then [At(msgs[0], "ts")] else [];
      assert OwnTimestamps(msgs, known) == head + OwnTimestamps(msgs[1..], known);
      match v {
        case Halted(issued, _) =>
        case Skipped =>
        case Deleted(ts, _) => assert [ts] == head;
      }
    }
  }

  /** Handled one by one, whether or not any raises, the messages ask
      for the deletes of exactly the known bots' messages, in order: a visit that
      raises has requested its delete exactly when it was one of them. */
  lemma {:induction false} RequestsMatchReference(msgs: seq<Json>, known: set<Json>, respond: nat -> Call, from: nat)
    ensures Sweep.AllRequested(Sweep.Visits(msgs, Step(known), respond, from)) == OwnTimestamps(msgs, known)
    decreases |msgs|
  {
    if |msgs| > 0 {
      RequestsMatchReference(msgs[1..], known, respond, from + 1);
      var vs := Sweep.Visits(msgs, Step(known), respond, from);
      assert vs[1..] == Sweep.Visits(msgs[1..], Step(known), respond, from + 1);
    }
  }

  /** The pass ends at the first message whose handling raised: the
      deletes requested are those of the known bots' messages up to and
      including that message, and none after it. */
  lemma IssuedStopAtFirstHalt(msgs: seq<Json>, known: set<Json>, respond: nat -> Call, from: nat)
    ensures var vs := Sweep.Visits(msgs, Step(known), respond, from);
      Sweep.Run(vs).issued == OwnTimestamps(msgs[..Sweep.Reached(vs)], known)
  {
    var vs := Sweep.Visits(msgs, Step(known), respond, from);
    var k := Sweep.Reached(vs);
    Sweep.RunStopsAtFirstHalt(vs);
    Sweep.VisitsPrefix(msgs, Step(known), respond, from, k);
    RequestsMatchReference(msgs[..k], known, respond, from);
  }

  /** `clean_tickets`: guard on the token, fetch the channel's history,
      then request the delete of every known-bot message and report how
      many chat confirmed. `known` is the start-up registry, `history` the
      history answer, `respond(i)` chat's answer to deleting message i.
      The acting user's id is read but plays no part, so it is not an input. */
  function CleanTickets(token: Option<string>, channel: Option<string>, history: Call,
                        known: set<Json>, respond: nat -> Call): (r: Sweep.Cleanup)
    ensures Blank(token) ==> r == Sweep.Refused
    ensures !Blank(token) ==> r.query == Some(Sweep.Query(channel, Sweep.HistoryLimit))
    ensures !Blank(token) && Sweep.Messages(history).Err? ==>
      r.tally.issued == [] && r.outcome == Raised(Sweep.Messages(history).fault)
    ensures !Blank(token) && Sweep.Messages(history).Ok? ==>
      var msgs := Sweep.Messages(history).value;
      && r.tally.issued <= OwnTimestamps(msgs, known)
      && (r.tally.fault.None? ==>
            && r.tally.issued == OwnTimestamps(msgs, known)
            && r.tally.deleted == ConfirmedOwn(msgs, known, respond, 0))
      && r.outcome == Sweep.Conclude(r.tally)
    ensures !Blank(token) && Sweep.Messages(history).Ok? ==>
      var msgs := Sweep.Messages(history).value;
      && (r.tally.fault.None? <==> forall i :: 0 <= i < |msgs| ==> !Step(known)(msgs[i], respond(i)).Halted?)
      && (r.tally.fault.Some? ==>
            exists i :: 0 <= i < |msgs| && Step(known)(msgs[i], respond(i)).Halted?
              && r.tally.fault.value == Step(known)(msgs[i], respond(i)).fault
              && (forall j :: 0 <= j < i ==> !Step(known)(msgs[j], respond(j)).Halted?)
              && r.tally.issued == OwnTimestamps(msgs[..i + 1], known))
    ensures r.tally.deleted <= |r.tally.issued|
  {
    if Blank(token) then Sweep.Refused
    else
      var query := Some(Sweep.Query(channel, Sweep.HistoryLimit));
      match Sweep.Messages(history)
      case Err(f) => Sweep.Cleanup(query, Sweep.Tally([], 0, None), Raised(f))
      case Ok(msgs) =>
        var t := Sweep.Run(Sweep.Visits(msgs, Step(known), respond, 0));
        PassMatchesReference(msgs, known, respond, 0);
        IssuedAreOwnPrefix(msgs, known, respond, 0);
        Sweep.RunRaisesFirst(msgs, Step(known), respond);
        IssuedStopAtFirstHalt(msgs, known, respond, 0);
        Sweep.Cleanup(query, t, Sweep.Conclude(t))
  }

  /** With an empty registry no message is the bridge's own. */
  lemma {:induction false} NoOwnMessages(msgs: seq<Json>)
    ensures OwnTimestamps(msgs, {}) == []
    decreases |msgs|
  {
    if |msgs| > 0 {
      NoOwnMessages(msgs[1..]);
    }
  }

  /** When start-up self-identification yields no usable `bot_id`, the
      registry stays empty and a cleanup deletes nothing. */
  lemma {:induction false} NoBotIdDeletesNothing(auth: Call, token: Option<string>, channel: Option<string>,
                                                 history: Call, respond: nat -> Call)
    requires ReportedBotId(auth).None? || !Truthy(ReportedBotId(auth).value)
    ensures var r := CleanTickets(token, channel, history, KnownBots(auth), respond);
      r.tally.issued == [] && r.tally.deleted == 0
  {
    assert KnownBots(auth) == {};
    if !Blank(token) && Sweep.Messages(history).Ok? {
      NoOwnMessages(Sweep.Messages(history).value);
    }
  }
}

=== FILE: http.dfy ===
/** What the bridges see of the outbound HTTP calls they make, and what
    they answer to their own callers. The calls themselves are not modelled:
    their results are inputs. */
module Http {
  import opened PyJson

  /** An answer from a remote service: status code, raw body text, and the
      body decoded as JSON (None when it is not JSON). */
  datatype Response = Response(code: int, text: string, json: Option<Json>)

  /** The result of one outbound request: an answer, or the exception the
      request raised before any answer arrived. */
  datatype Call = Answered(response: Response) | Failed(reason: string)

  /** The `ok` attribute of a requests response: false exactly for the
      client and server error codes 400 through 599. */
  predicate ResponseOk(r: Response) {
    !(400 <= r.code < 600)
  }

  /** A handler's answer: a status code and the dict passed to `jsonify`. */
  datatype Reply = Reply(code: int, body: Json)

  /** How a request ends: a reply, or an exception Flask turns into 500. */
  datatype Outcome = Replied(reply: Reply) | Raised(fault: Fault)

  /** What the caller of a handler receives as status code. */
  function StatusCode(o: Outcome): int {
    match o
    case Replied(r) => r.code
    case Raised(_) => 500
  }

  /** A two-entry dict, in the order the handler writes it. */
  function Pair(k1: string, v1: Json, k2: string, v2: Json): (r: Json)
    requires k1 != k2
    ensures At(r, k1) == v1 && At(r, k2) == v2
  {
    var r := Obj([Member(k1, v1), Member(k2, v2)]);
    LookupAt(r.members, 0, k1);
    LookupAt(r.members, 1, k2);
    r
  }

  /** A three-entry dict, in the order the handler writes it. */
  function Triple(k1: string, v1: Json, k2: string, v2: Json, k3: string, v3: Json): (r: Json)
    requires k1 != k2 && k1 != k3 && k2 != k3
    ensures At(r, k1) == v1 && At(r, k2) == v2 && At(r, k3) == v3
  {
    var r := Obj([Member(k1, v1), Member(k2, v2), Member(k3, v3)]);
    LookupAt(r.members, 0, k1);
    LookupAt(r.members, 1, k2);
    LookupAt(r.members, 2, k3);
    r
  }

  /** A handler's request together with what it posted to chat, if anything. */
  datatype Exchange<M> = Exchange(posted: Option<M>, outcome: Outcome)

  const InvalidPayload := Reply(400, Obj([Member("error", Str("Invalid payload"))]))
  const SentMessage := "Slack notification sent successfully."
  const SendFailed := "Failed to send to Slack"

  /** The common tail of both webhook handlers: once the message is posted,
      a 200 from chat becomes a 200 confirmation carrying the request's
      timestamp; any other code becomes a 500 carrying chat's body; a post
      that raised is not caught. */
  function Relay(post: Call, timestamp: string): (o: Outcome)
    ensures post.Failed? <==> o.Raised?
    ensures post.Failed? ==> o.fault == Unreachable(post.reason)
    ensures o.Replied? ==> (o.reply.code == 200 <==> post.response.code == 200)
    ensures o.Replied? ==> o.reply.code == 200 || o.reply.code == 500
    ensures o.Replied? && o.reply.code == 200 ==>
      At(o.reply.body, "message") == Str(SentMessage) &&
      At(o.reply.body, "timestamp") == Str(timestamp)
    ensures o.Replied? && o.reply.code == 500 ==>
      At(o.reply.body, "error") == Str(SendFailed) &&
      At(o.reply.body, "details") == Str(post.response.text)
  {
    match post
    case Failed(reason) => Raised(Unreachable(reason))
    case Answered(resp) =>
      if resp.code != 200 then
        Replied(Reply(500, Pair("error", Str(SendFailed), "details", Str(resp.text))))
      else
        Replied(Reply(200, Pair("message", Str(SentMessage), "timestamp", Str(timestamp))))
  }
}

=== FILE: pyjson.dfy ===
/** Python's in-memory view of a decoded JSON document, and the handful of
    Python operations both bridges apply to it: the truth value used by `if`
    and `or`, `dict.get`, hashing for set membership, and the exceptions
    these raise when the value has the wrong shape. */
module PyJson {

  datatype Option<+T> = None | Some(value: T)

  /** A decoded JSON value. An object keeps its members in document order,
      which is also the insertion order of the Python dict built from it. */
  datatype Json =
    | Null
    | Bool(b: bool)
    | Int(i: int)
    | Str(s: string)
    | Arr(items: seq<Json>)
    | Obj(members: seq<Member>)

  datatype Member = Member(key: string, value: Json)

  /** An exception a handler does not catch; Flask answers it with 500. */
  datatype Fault =
    | NoGet(receiver: Json)        // AttributeError: `.get` on a value that is not a dict
    | Unhashable(value: Json)      // TypeError: a dict or list looked up in a set
    | NotIterable(value: Json)     // TypeError: a `for` loop over None, a bool or an int
    | NotJson                      // `.json()` on a body that is not JSON
    | Unreachable(reason: string)  // an outbound request raised (connection error, timeout)

  datatype Result<+T> = Ok(value: T) | Err(fault: Fault) {
    predicate IsFailure() { Err? }

    function PropagateFailure<U>(): Result<U>
      requires Err?
    {
      Err(fault)
    }

    function Extract(): T
      requires Ok?
    {
      value
    }
  }

  /** Python's truth value: None, False, 0, "", [] and {} are falsy. */
  predicate Truthy(j: Json) {
    match j
    case Null => false
    case Bool(b) => b
    case Int(i) => i != 0
    case Str(s) => |s| > 0
    case Arr(xs) => |xs| > 0
    case Obj(ms) => |ms| > 0
  }

  /** The falsy values are exactly the six listed in the Python manual for
      the types JSON decodes to. */
  lemma FalsyValues(j: Json)
    ensures !Truthy(j) <==> j in [Null, Bool(false), Int(0), Str(""), Arr([]), Obj([])]
  {
  }

  /** The value bound to `k`; with a repeated key the last binding wins,
      as when `json.loads` builds the dict. */
  function Lookup(ms: seq<Member>, k: string): Option<Json>
    decreases |ms|
  {
    if |ms| == 0 then None
    else if ms[|ms| - 1].key == k then Some(ms[|ms| - 1].value)
    else Lookup(ms[..|ms| - 1], k)
  }

  /** The lookup finds nothing exactly when no member has the key. */
  lemma {:induction false} LookupNone(ms: seq<Member>, k: string)
    ensures Lookup(ms, k).None? <==> forall i :: 0 <= i < |ms| ==> ms[i].key != k
    decreases |ms|
  {
    if |ms| > 0 && ms[|ms| - 1].key != k {
      var init := ms[..|ms| - 1];
      LookupNone(init, k);
      assert forall i :: 0 <= i < |init| ==> init[i] == ms[i];
    }
  }

  /** What the lookup finds is the value of the last member with the key. */
  lemma {:induction false} LookupSpec(ms: seq<Member>, k: string)
    requires Lookup(ms, k).Some?
    ensures exists i :: 0 <= i < |ms| && ms[i] == Member(k, Lookup(ms, k).value) &&
                        forall j :: i < j < |ms| ==> ms[j].key != k
    decreases |ms|
  {
    var last := |ms| - 1;
    if ms[last].key == k {
      assert ms[last] == Member(k, Lookup(ms, k).value);
    } else {
      var init := ms[..last];
      LookupSpec(init, k);
      var i :| 0 <= i < |init| && init[i] == Member(k, Lookup(init, k).value) &&
        forall j :: i < j < |init| ==> init[j].key != k;
      assert ms[i] == init[i];
      assert forall j :: i < j < |ms| ==> ms[j].key != k by {
        assert forall j :: i < j < |init| ==> init[j] == ms[j];
      }
    }
  }

  /** The value of the last member with key `k` is what the lookup finds. */
  lemma {:induction false} LookupAt(ms: seq<Member>, i: nat, k: string)
    requires i < |ms| && ms[i].key == k
    requires forall j :: i < j < |ms| ==> ms[j].key != k
    ensures Lookup(ms, k) == Some(ms[i].value)
    decreases |ms|
  {
    if i < |ms| - 1 {
      var init := ms[..|ms| - 1];
      assert init[i] == ms[i];
      LookupAt(init, i, k);
    }
  }

  /** A key no member has is not found. */
  lemma {:induction false} LookupMissing(ms: seq<Member>, k: string)
    requires forall i :: 0 <= i < |ms| ==> ms[i].key != k
    ensures Lookup(ms, k) == None
    decreases |ms|
  {
    if |ms| > 0 {
      LookupMissing(ms[..|ms| - 1], k);
    }
  }

  /** A member placed before all others is shadowed for its own key and
      invisible to every other key. */
  lemma {:induction false} LookupPrepend(m: Member, ms: seq<Member>, k: string)
    requires k != m.key
    ensures Lookup([m] + ms, k) == Lookup(ms, k)
    decreases |ms|
  {
    if |ms| > 0 {
      var last := |ms| - 1;
      assert ([m] + ms)[..|ms|] == [m] + ms[..last];
      LookupPrepend(m, ms[..last], k);
    }
  }

  /** `k in j` for a dict `j`. */
  predicate Has(j: Json, k: string) {
    j.Obj? && Lookup(j.members, k).Some?
  }

  /** The value at `k`, or `d` when `j` has no such key. Total: says nothing
      about whether Python could have asked. */
  function AtOr(j: Json, k: string, d: Json): (r: Json)
    ensures Has(j, k) ==> Lookup(j.members, k) == Some(r)
    ensures !Has(j, k) ==> r == d
  {
    if Has(j, k) then Lookup(j.members, k).value else d
  }

  /** `j.get(k)` as a value: None when the key is missing. */
  function At(j: Json, k: string): Json {
    AtOr(j, k, Null)
  }

  /** `j.get(k, d)`: raises AttributeError unless `j` is a dict. */
  function GetOr(j: Json, k: string, d: Json): (r: Result<Json>)
    ensures r.Err? <==> !j.Obj?
    ensures r.Err? ==> r.fault == NoGet(j)
    ensures r.Ok? ==> r.value == AtOr(j, k, d)
  {
    if j.Obj? then Ok(AtOr(j, k, d)) else Err(NoGet(j))
  }

  /** Which operand `xs[0] or xs[1] or ... or xs[n-1]` evaluates to: the
      first truthy one, or the last operand when none is truthy. */
  function OrIndex(xs: seq<Json>): (k: nat)
    requires |xs| > 0
    ensures k < |xs|
    ensures Truthy(xs[k]) || k == |xs| - 1
    ensures forall j :: 0 <= j < k ==> !Truthy(xs[j])
    decreases |xs|
  {
    if Truthy(xs[0]) || |xs| == 1 then 0 else 1 + OrIndex(xs[1..])
  }

  /** The value of Python's `xs[0] or ... or xs[n-1]`. */
  function Or(xs: seq<Json>): (r: Json)
    requires |xs| > 0
    ensures Truthy(r) <==> exists i :: 0 <= i < |xs| && Truthy(xs[i])
    ensures !Truthy(r) ==> r == xs[|xs| - 1]
  {
    xs[OrIndex(xs)]
  }

  /** Values Python can put in a set or test against one. */
  predicate Hashable(j: Json) {
    j.Null? || j.Bool? || j.Int? || j.Str?
  }

  /** The representative of `j` under Python's hash equality, where
      True == 1 and False == 0. */
  function Key(j: Json): (r: Json)
    requires Hashable(j)
    ensures r.Null? || r.Int? || r.Str?
    ensures Truthy(r) == Truthy(j)
  {
    match j
    case Bool(b) => Int(if b then 1 else 0)
    case _ => j
  }

  /** The number a bool or an int stands for in arithmetic and comparison. */
  function Numeric(j: Json): int
    requires j.Bool? || j.Int?
  {
    if j.Bool? then (if j.b then 1 else 0) else j.i
  }

  /** Python's `a == b` between hashable scalars: None equals only None, a
      string only an equal string, and bools and ints compare as numbers. */
  predicate PyEq(a: Json, b: Json)
    requires Hashable(a) && Hashable(b)
  {
    if a.Null? || b.Null? then a.Null? && b.Null?
    else if a.Str? || b.Str? then a.Str? && b.Str? && a.s == b.s
    else Numeric(a) == Numeric(b)
  }

  /** Two hashable values land on the same representative exactly when
      Python finds them equal, so set membership tested through `Key` is
      Python's set membership. */
  lemma KeyIsEquality(a: Json, b: Json)
    requires Hashable(a) && Hashable(b)
    ensures Key(a) == Key(b) <==> PyEq(a, b)
  {
  }

  /** Python's `v == f` where `f` is a form field: a string, or None when the
      field is absent. */
  function SameAsForm(v: Json, f: Option<string>): (b: bool)
    ensures Hashable(v) ==> (b <==> PyEq(v, if f.Some? then Str(f.value) else Null))
    ensures !Hashable(v) ==> !b
  {
    match f
    case None => v == Null
    case Some(s) => v == Str(s)
  }

  /** Whether `f` is unset or empty (`not f`). */
  predicate Blank(f: Option<string>) {
    f.None? || f.value == ""
  }
}

=== FILE: pytext.dfy ===
/** How Python turns the JSON values the bridges handle into text: `str()`
    as an f-string uses it, `repr()` for the members of a list or dict, and
    `str.split` / `str.join` on a single separator character. */
module PyText {
  import opened PyJson

  const Digits := "0123456789"

  predicate IsDigit(c: char) {
    '0' <= c <= '9'
  }

  /** Decimal digits of `n`, most significant first, without leading zeros. */
  function NatToString(n: nat): (r: string)
    ensures |r| > 0
    ensures forall i :: 0 <= i < |r| ==> IsDigit(r[i])
    decreases n
  {
    if n < 10 then [Digits[n]] else NatToString(n / 10) + [Digits[n % 10]]
  }

  /** The number a string of decimal digits denotes. */
  function ParseNat(s: string): nat
    requires forall i :: 0 <= i < |s| ==> IsDigit(s[i])
    decreases |s|
  {
    if |s| == 0 then 0
    else
      assert IsDigit(s[|s| - 1]);
      ParseNat(s[..|s| - 1]) * 10 + (s[|s| - 1] as int - '0' as int)
  }

  /** Reading the digits back yields the number they were written from. */
  lemma {:induction false} NatToStringRoundTrip(n: nat)
    ensures ParseNat(NatToString(n)) == n
    decreases n
  {
    var r := NatToString(n);
    if n >= 10 {
      NatToStringRoundTrip(n / 10);
      assert r[..|r| - 1] == NatToString(n / 10);
    }
  }

  /** The four parts of a concatenation can be cut back out of it. */
  lemma ConcatParts(a: string, b: string, c: string, e: string)
    ensures var r := a + b + c + e;
      && r[..|a|] == a
      && r[|a|..|r| - |e| - |c|] == b
      && r[|r| - |e| - |c|..|r| - |e|] == c
      && r[|r| - |e|..] == e
  {
    var r := a + b + c + e;
    assert r[..|a|] == a;
    assert r[|a|..|r| - |e| - |c|] == b;
    assert r[|r| - |e| - |c|..|r| - |e|] == c;
    assert r[|r| - |e|..] == e;
  }

  /** Whether `d` is the decimal text of `i`, read back digit by digit:
      the digits of `i`, or a minus sign and the digits of `-i`. */
  predicate ReadsBackAs(d: string, i: int) {
    if i >= 0 then (forall k :: 0 <= k < |d| ==> IsDigit(d[k])) && ParseNat(d) == i
    else |d| > 0 && d[0] == '-' && (forall k :: 1 <= k < |d| ==> IsDigit(d[k]))
         && ParseNat(d[1..]) == -i
  }

  /** `str(i)` reads back as `i`, negative or not. */
  lemma IntToStringRoundTrip(i: int)
    ensures ReadsBackAs(IntToString(i), i)
  {
    if i >= 0 {
      NatToStringRoundTrip(i);
    } else {
      NatToStringRoundTrip(-i);
      assert ("-" + NatToString(-i))[1..] == NatToString(-i);
    }
  }

  /** `str(i)` for an int. */
  function IntToString(i: int): (r: string)
    ensures |r| > 0
    ensures forall k :: 0 <= k < |r| ==> IsDigit(r[k]) || r[k] == '-'
  {
    if i < 0 then "-" + NatToString(-i) else NatToString(i)
  }

  /** `sep.join(parts)`. */
  function Join(parts: seq<string>, sep: string): string
    decreases |parts|
  {
    if |parts| == 0 then ""
    else if |parts| == 1 then parts[0]
    else parts[0] + sep + Join(parts[1..], sep)
  }

  /** The joined text starts with the first part and a separator, and ends
      with a separator and the last part. */
  lemma {:induction false} JoinEnds(parts: seq<string>, sep: string)
    requires |parts| > 1
    ensures parts[0] + sep <= Join(parts, sep)
    ensures Join(parts, sep) == Join(parts[..|parts| - 1], sep) + sep + parts[|parts| - 1]
    decreases |parts|
  {
    var n := |parts|;
    var head, last := parts[0] + sep, parts[n - 1];
    if n == 2 {
      assert Join(parts[1..], sep) == last;
      assert Join(parts[..1], sep) == parts[0];
    } else {
      var rest := parts[1..];
      JoinEnds(rest, sep);
      assert rest[..n - 2] == parts[..n - 1][1..];
      var mid := Join(rest[..n - 2], sep);
      assert Join(parts[..n - 1], sep) == head + mid;
      assert Join(parts, sep) == head + (mid + sep + last);
      assert head + (mid + sep + last) == head + mid + sep + last;
    }
  }

  /** The joined text ends with the last separator and the last part. */
  lemma JoinLast(parts: seq<string>, sep: string)
    requires |parts| > 1
    ensures var j, last := Join(parts, sep), parts[|parts| - 1];
      |j| >= |sep| + |last| && j[|j| - |sep| - |last|..] == sep + last
  {
    JoinEnds(parts, sep);
    var init := Join(parts[..|parts| - 1], sep);
    assert Join(parts, sep) == init + (sep + parts[|parts| - 1]);
  }

  /** A character put in front of the first part comes out in front of the
      joined text. */
  lemma JoinExtendFirst(c: char, parts: seq<string>, sep: string)
    requires |parts| > 0
    ensures Join([[c] + parts[0]] + parts[1..], sep) == [c] + Join(parts, sep)
  {
    if |parts| > 1 {
      assert ([[c] + parts[0]] + parts[1..])[1..] == parts[1..];
    }
  }

  /** `repr(j)`: strings quoted, containers written out element by element. */
  function Repr(j: Json): (r: string)
    ensures |r| > 0
    ensures j.Str? ==> r == Quote(j.s)
    ensures j.Int? && j.i >= 0 ==> r == NatToString(j.i) && ParseNat(r) == j.i
    ensures j.Arr? ==> r[0] == '[' && r[|r| - 1] == ']'
    ensures j.Obj? ==> r[0] == '{' && r[|r| - 1] == '}'
    decreases j
  {
    match j
    case Null => "None"
    case Bool(b) => if b then "True" else "False"
    case Int(i) => (if i >= 0 then NatToStringRoundTrip(i); IntToString(i) else IntToString(i))
    case Str(s) => Quote(s)
    case Arr(xs) =>
      "[" + Join(seq(|xs|, k requires 0 <= k < |xs| => Repr(xs[k])), ", ") + "]"
    case Obj(ms) =>
      "{" + Join(seq(|ms|, k requires 0 <= k < |ms| =>
                       Quote(ms[k].key) + ": " + Repr(ms[k].value)), ", ") + "}"
  }

  /** The quotes `repr` puts around a string: double quotes when the text
      holds a single quote but no double quote, single quotes otherwise. */
  function Quote(s: string): (r: string)
    ensures |r| == |s| + 2 && r[1..|r| - 1] == s
    ensures r[0] == r[|r| - 1] && (r[0] == '\'' || r[0] == '"')
    ensures r[0] == '"' <==> '\'' in s && '"' !in s
  {
    if '\'' in s && '"' !in s then "\"" + s + "\"" else "'" + s + "'"
  }

  /** `str(j)`, which is what an f-string placeholder `{j}` inserts. */
  function Show(j: Json): (r: string)
    ensures j.Str? ==> r == j.s
    ensures j.Null? ==> r == "None"
  {
    match j
    case Str(s) => s
    case _ => Repr(j)
  }

  /** A truthy value never renders as empty text. */
  lemma ShowTruthyNonEmpty(j: Json)
    requires Truthy(j)
    ensures |Show(j)| > 0
  {
    match j {
      case Str(s) =>
      case Bool(b) =>
      case Int(i) =>
      case Arr(xs) =>
      case Obj(ms) =>
    }
  }

  /** `str` of None, a bool or an int is a single line. */
  lemma ShowScalarSingleLine(j: Json)
    requires j.Null? || j.Bool? || j.Int?
    ensures '\n' !in Show(j)
  {
    if j.Int? {
      var r := IntToString(j.i);
      assert forall k :: 0 <= k < |r| ==> r[k] != '\n';
    }
  }

  /** `s.split(d)` for a one-character separator `d`. */
  function Split(s: string, d: char): (r: seq<string>)
    ensures |r| > 0
    ensures forall i :: 0 <= i < |r| ==> d !in r[i]
    decreases |s|
  {
    if |s| == 0 then [""]
    else
      var rest := Split(s[1..], d);
      if s[0] == d then [""] + rest
      else [[s[0]] + rest[0]] + rest[1..]
  }

  /** A text without the separator splits into itself. */
  lemma {:induction false} SplitWithoutSeparator(s: string, d: char)
    requires d !in s
    ensures Split(s, d) == [s]
    decreases |s|
  {
    if |s| > 0 {
      SplitWithoutSeparator(s[1..], d);
      assert [s[0]] + s[1..] == s;
    }
  }

  /** Splitting at the first separator: the part before it comes first. */
  lemma {:induction false} SplitAtFirst(a: string, d: char, b: string)
    requires d !in a
    ensures Split(a + [d] + b, d) == [a] + Split(b, d)
    decreases |a|
  {
    if |a| == 0 {
      assert a + [d] + b == [d] + b;
      assert ([d] + b)[1..] == b;
    } else {
      var s := a + [d] + b;
      assert s[0] == a[0];
      assert s[1..] == a[1..] + [d] + b;
      SplitAtFirst(a[1..], d, b);
      assert [a[0]] + a[1..] == a;
    }
  }

  /** Joining lines that hold no separator and splitting the result gives
      the lines back: the separator marks exactly the boundaries. */
  lemma {:induction false} SplitJoin(parts: seq<string>, d: char)
    requires |parts| > 0
    requires forall i :: 0 <= i < |parts| ==> d !in parts[i]
    ensures Split(Join(parts, [d]), d) == parts
    decreases |parts|
  {
    if |parts| == 1 {
      SplitWithoutSeparator(parts[0], d);
    } else {
      SplitJoin(parts[1..], d);
      SplitAtFirst(parts[0], d, Join(parts[1..], [d]));
      assert [parts[0]] + parts[1..] == parts;
    }
  }

  /** Splitting and joining again restores the text: nothing is lost. */
  lemma {:induction false} JoinSplit(s: string, d: char)
    ensures Join(Split(s, d), [d]) == s
    decreases |s|
  {
    if |s| > 0 {
      JoinSplit(s[1..], d);
      var rest := Split(s[1..], d);
      if s[0] == d {
        assert Join([""] + rest, [d]) == "" + [d] + Join(rest, [d]);
        assert [s[0]] + s[1..] == s;
      } else {
        var parts := [[s[0]] + rest[0]] + rest[1..];
        if |rest| == 1 {
          assert Join(parts, [d]) == [s[0]] + rest[0];
          assert Join(rest, [d]) == rest[0];
        } else {
          assert parts[1..] == rest[1..];
          assert Join(rest, [d]) == rest[0] + [d] + Join(rest[1..], [d]);
        }
        assert [s[0]] + s[1..] == s;
      }
    }
  }
}

=== FILE: sweep.dfy ===
/** The shape both `/clean-tickets` handlers share: a token guard, one
    history fetch of at most twenty messages, then one pass over the
    messages that requests a delete for each selected one and counts the
    deletes the bridge accepts as done. Which messages are selected and
    which deletes count differ per bridge; the pass itself is `Run`. */
module Sweep {
  import opened PyJson
  import opened Http
  import PyText

  /** The `limit` sent with the history request. */
  const HistoryLimit: nat := 20

  /** What handling one message did. */
  datatype Visit =
    | Skipped                                     // not selected: no request made
    | Deleted(ts: Json, counted: bool)            // delete of `ts` requested; `counted` when it added to the count
    | Halted(issued: Option<Json>, fault: Fault)  // raised, after requesting the delete of `issued` if any

  /** The effect of a pass: the timestamps whose delete was requested, in
      order, the count reported, and the exception that ended the pass early. */
  datatype Tally = Tally(issued: seq<Json>, deleted: nat, fault: Option<Fault>)

  /** Index of the first message whose handling raised, or |vs| if none did. */
  function FirstHalt(vs: seq<Visit>): (h: nat)
    ensures h <= |vs|
    ensures h < |vs| ==> vs[h].Halted?
    ensures forall i :: 0 <= i < h ==> !vs[i].Halted?
    decreases |vs|
  {
    if |vs| == 0 then 0
    else if vs[0].Halted? then 0
    else 1 + FirstHalt(vs[1..])
  }

  /** The loop: visits are taken in order, a delete adds its timestamp to
      the requests and, when counted, one to the count; the first exception
      ends the loop, keeping the requests already made. The count never
      exceeds the requests, which never exceed the messages, and the pass
      raises exactly the first exception among the visits. */
  function Run(vs: seq<Visit>): (t: Tally)
    ensures t.deleted <= |t.issued| <= |vs|
    ensures t.fault.None? <==> FirstHalt(vs) == |vs|
    ensures t.fault.Some? ==> t.fault == Some(vs[FirstHalt(vs)].fault)
    decreases |vs|
  {
    if |vs| == 0 then Tally([], 0, None)
    else
      match vs[0]
      case Halted(issued, f) =>
        Tally(if issued.Some? then [issued.value] else [], 0, Some(f))
      case Skipped => Run(vs[1..])
      case Deleted(ts, counted) =>
        var rest := Run(vs[1..]);
        Tally([ts] + rest.issued, rest.deleted + (if counted then 1 else 0), rest.fault)
  }

  /** The visits of `msgs` in history order, `step` handling one message
      given chat's answer to its delete; the message at position i is
      answered by `respond(from + i)`. */
  function Visits(msgs: seq<Json>, step: (Json, Call) -> Visit, respond: nat -> Call, from: nat): (vs: seq<Visit>)
    ensures |vs| == |msgs|
    decreases |msgs|
  {
    if |msgs| == 0 then []
    else [step(msgs[0], respond(from))] + Visits(msgs[1..], step, respond, from + 1)
  }

  /** Every message is handled exactly once, in history order: the i-th
      visit is `step` applied to the i-th message and the i-th answer. */
  lemma {:induction false} VisitsInOrder(msgs: seq<Json>, step: (Json, Call) -> Visit, respond: nat -> Call, from: nat)
    ensures var vs := Visits(msgs, step, respond, from);
      forall i :: 0 <= i < |msgs| ==> vs[i] == step(msgs[i], respond(from + i))
    decreases |msgs|
  {
    if |msgs| > 0 {
      VisitsInOrder(msgs[1..], step, respond, from + 1);
      var rest := Visits(msgs[1..], step, respond, from + 1);
      assert forall i :: 1 <= i < |msgs| ==> rest[i - 1] == step(msgs[i], respond(from + i));
    }
  }

  /** The delete a visit requested, if any. */
  function Requested(v: Visit): seq<Json> {
    match v
    case Skipped => []
    case Deleted(ts, _) => [ts]
    case Halted(issued, _) => if issued.Some? then [issued.value] else []
  }

  /** Every delete the visits requested, in order. */
  function AllRequested(vs: seq<Visit>): seq<Json>
    decreases |vs|
  {
    if |vs| == 0 then [] else Requested(vs[0]) + AllRequested(vs[1..])
  }

  /** How many visits the loop reaches: up to and including the first that
      raised, or all of them. */
  function Reached(vs: seq<Visit>): (k: nat)
    ensures k <= |vs|
  {
    if FirstHalt(vs) < |vs| then FirstHalt(vs) + 1 else |vs|
  }

  /** The loop stops at the first exception: the deletes it requested are
      those of the visits it reached, and none of any later visit. */
  lemma {:induction false} RunStopsAtFirstHalt(vs: seq<Visit>)
    ensures Run(vs).issued == AllRequested(vs[..Reached(vs)])
    decreases |vs|
  {
    if |vs| > 0 {
      var k := Reached(vs);
      var pre := vs[..k];
      assert pre[0] == vs[0];
      if !vs[0].Halted? {
        RunStopsAtFirstHalt(vs[1..]);
        assert pre[1..] == vs[1..][..Reached(vs[1..])];
      } else {
        assert pre[1..] == [];
      }
    }
  }

  /** The visits of the first n messages are the first n visits. */
  lemma VisitsPrefix(msgs: seq<Json>, step: (Json, Call) -> Visit, respond: nat -> Call, from: nat, n: nat)
    requires n <= |msgs|
    ensures Visits(msgs, step, respond, from)[..n] == Visits(msgs[..n], step, respond, from)
  {
    VisitsInOrder(msgs, step, respond, from);
    VisitsInOrder(msgs[..n], step, respond, from);
  }

  /** The pass raises exactly when some visit raised, and then it raises
      the first one's exception, the loop having reached that visit and no
      further. */
  lemma RunFault(vs: seq<Visit>)
    ensures Run(vs).fault.None? <==> forall i :: 0 <= i < |vs| ==> !vs[i].Halted?
    ensures Run(vs).fault.Some? ==>
      && FirstHalt(vs) < |vs|
      && Run(vs).fault.value == vs[FirstHalt(vs)].fault
      && Reached(vs) == FirstHalt(vs) + 1
  {
  }

  /** The same, stated of the messages: the pass raises exactly when some
      message's step raises, and then it raises the exception of the first
      such message, having reached it and no further. */
  lemma RunRaisesFirst(msgs: seq<Json>, step: (Json, Call) -> Visit, respond: nat -> Call)
    ensures var vs := Visits(msgs, step, respond, 0);
      var t := Run(vs);
      && (t.fault.None? <==> forall i :: 0 <= i < |msgs| ==> !step(msgs[i], respond(i)).Halted?)
      && (t.fault.Some? ==>
            exists i :: 0 <= i < |msgs| && step(msgs[i], respond(i)).Halted?
              && t.fault.value == step(msgs[i], respond(i)).fault
              && (forall j :: 0 <= j < i ==> !step(msgs[j], respond(j)).Halted?)
              && Reached(vs) == i + 1)
  {
    var vs := Visits(msgs, step, respond, 0);
    RunFault(vs);
    forall i | 0 <= i < |msgs|
      ensures vs[i] == step(msgs[i], respond(i))
    {
      VisitsInOrder(msgs, step, respond, 0);
      assert vs[i] == step(msgs[i], respond(0 + i));
    }
    if Run(vs).fault.Some? {
      var h := FirstHalt(vs);
      assert vs[h] == step(msgs[h], respond(h));
    }
  }

  /** `for msg in value`: the list's items, a dict's keys or a string's
      characters; None, a bool or an int cannot be iterated. */
  function Iterate(value: Json): (r: Result<seq<Json>>)
    ensures r.Err? <==> value.Null? || value.Bool? || value.Int?
    ensures value.Arr? ==> r == Ok(value.items)
    ensures value.Obj? ==>
      && r.Ok? && |r.value| == |value.members|
      && forall i :: 0 <= i < |value.members| ==> r.value[i] == Str(value.members[i].key)
    ensures value.Str? ==>
      && r.Ok? && |r.value| == |value.s|
      && forall i :: 0 <= i < |value.s| ==> r.value[i] == Str([value.s[i]])
  {
    match value
    case Arr(xs) => Ok(xs)
    case Obj(ms) => Ok(seq(|ms|, i requires 0 <= i < |ms| => Str(ms[i].key)))
    case Str(s) => Ok(seq(|s|, i requires 0 <= i < |s| => Str([s[i]])))
    case _ => Err(NotIterable(value))
  }

  /** `history_resp.json().get("messages", [])`, iterated: the messages of
      the history answer, none when it has no `messages` entry. */
  function Messages(history: Call): (r: Result<seq<Json>>)
    ensures history.Failed? ==> r == Err(Unreachable(history.reason))
    ensures history.Answered? && history.response.json.None? ==> r == Err(NotJson)
    ensures history.Answered? && history.response.json.Some? ==>
      var j := history.response.json.value;
      (!j.Obj? ==> r == Err(NoGet(j))) &&
      (j.Obj? && !Has(j, "messages") ==> r == Ok([])) &&
      (j.Obj? && Has(j, "messages") ==> r == Iterate(At(j, "messages"))) &&
      (j.Obj? && At(j, "messages").Arr? ==> r == Ok(At(j, "messages").items))
  {
    match history
    case Failed(reason) => Err(Unreachable(reason))
    case Answered(resp) =>
      match resp.json
      case None => Err(NotJson)
      case Some(j) =>
        if j.Obj? then Iterate(AtOr(j, "messages", Arr([]))) else Err(NoGet(j))
  }

  /** The history request: the channel taken from the form, and the limit. */
  datatype Query = Query(channel: Option<string>, limit: nat)

  /** One cleanup request: the history request made (None when the handler
      stopped before it), the pass over the messages, and the answer. */
  datatype Cleanup = Cleanup(query: Option<Query>, tally: Tally, outcome: Outcome)

  const MissingToken := Reply(403, Obj([Member("error", Str("Missing SLACK_BOT_TOKEN"))]))

  /** The token guard's answer: nothing fetched, nothing deleted. */
  const Refused := Cleanup(None, Tally([], 0, None), Replied(MissingToken))

  const ReportLead := "Deleted "
  const ReportTail := " messages from channel."

  /** The confirmation text for `n` deleted messages: the count's digits
      between a fixed lead and tail, and they read back as the count. */
  function Report(n: nat): (r: string)
    ensures |r| > |ReportLead| + |ReportTail|
    ensures r[..|ReportLead|] == ReportLead && r[|r| - |ReportTail|..] == ReportTail
    ensures var d := r[|ReportLead|..|r| - |ReportTail|];
      && (forall i :: 0 <= i < |d| ==> PyText.IsDigit(d[i]))
      && PyText.ParseNat(d) == n
  {
    var d := PyText.IntToString(n);
    PyText.NatToStringRoundTrip(n);
    var r := ReportLead + d + ReportTail;
    assert r[|ReportLead|..|r| - |ReportTail|] == d;
    r
  }

  /** The answer once the pass is over: the count, or the exception that
      ended it. */
  function Conclude(t: Tally): (o: Outcome)
    ensures o.Raised? <==> t.fault.Some?
    ensures o.Raised? ==> o.fault == t.fault.value
    ensures o.Replied? ==> o.reply == Reply(200, Obj([Member("message", Str(Report(t.deleted)))]))
  {
    match t.fault
    case Some(f) => Raised(f)
    case None => Replied(Reply(200, Obj([Member("message", Str(Report(t.deleted)))])))
  }
}

=== FILE: text_app.dfy ===
/** The incoming-webhook bridge of teamworkslack.py: it relays each ticket
    webhook as a single text message, probes the webhook on demand, and on
    request deletes recent bot messages and the requesting user's messages
    from a channel. */
module TextApp {
  import opened PyJson
  import opened PyText
  import opened Http
  import Ticket
  import Sweep

  // ---------------------------------------------------------------------
  // Health probe (`health_check`, lines 25-36)
  // ---------------------------------------------------------------------

  const ProbePrefix := "\U{2705} Health check at "

  /** One health probe: a timestamped text is posted to the webhook; a 200
      answer is reported as "ok" with 200, any other answer as "error"
      with chat's body and 500, and a post that raised as "error" with the
      exception's text and 500. Every answer carries the timestamp. */
  function HealthCheck(post: Call, timestamp: string): (r: Exchange<string>)
    ensures r.posted == Some(ProbePrefix + timestamp)
    ensures r.outcome.Replied?
    ensures r.outcome.reply.code == 200 <==> post.Answered? && post.response.code == 200
    ensures r.outcome.reply.code == 200 || r.outcome.reply.code == 500
    ensures At(r.outcome.reply.body, "timestamp") == Str(timestamp)
    ensures At(r.outcome.reply.body, "status") == Str(if r.outcome.reply.code == 200 then "ok" else "error")
    ensures post.Failed? ==> At(r.outcome.reply.body, "exception") == Str(post.reason)
    ensures post.Answered? && post.response.code != 200 ==>
      At(r.outcome.reply.body, "details") == Str(post.response.text)
  {
    var probe := Some(ProbePrefix + timestamp);
    match post
    case Failed(reason) =>
      Exchange(probe, Replied(Reply(500,
        Triple("status", Str("error"), "exception", Str(reason), "timestamp", Str(timestamp)))))
    case Answered(resp) =>
      if resp.code == 200 then
        Exchange(probe, Replied(Reply(200, Pair("status", Str("ok"), "timestamp", Str(timestamp)))))
      else
        Exchange(probe, Replied(Reply(500,
          Triple("status", Str("error"), "details", Str(resp.text), "timestamp", Str(timestamp)))))
  }

  /** The probe and the reply agree: stripping the fixed heading from the
      posted text gives back the timestamp the reply reports, and whether
      the reply is "ok" depends on the webhook's answer alone. */
  lemma ProbeMatchesReply(post: Call, timestamp: string, other: string)
    ensures var r := HealthCheck(post, timestamp);
      && ProbePrefix <= r.posted.value
      && At(r.outcome.reply.body, "timestamp") == Str(r.posted.value[|ProbePrefix|..])
      && r.outcome.reply.code == HealthCheck(post, other).outcome.reply.code
  {
    var text := ProbePrefix + timestamp;
    assert text[|ProbePrefix|..] == timestamp;
  }

  // ---------------------------------------------------------------------
  // Ticket normalisation (`teamwork_webhook`, lines 45-57)
  // ---------------------------------------------------------------------

  /** `assignee.get("fullName") if isinstance(assignee, dict) else
      "Unassigned"`, with `assignee = ticket.get("assignee") or
      ticket.get("assigned_to")`. Only these two keys are consulted; a dict
      gives its `fullName`, None when it has none; anything else, a plain
      string included, gives "Unassigned". */
  function AssignedTo(ticket: Json): (r: Json)
    requires ticket.Obj?
    ensures Truthy(At(ticket, "assignee")) && At(ticket, "assignee").Obj? ==>
      r == At(At(ticket, "assignee"), "fullName")
    ensures !Truthy(At(ticket, "assignee")) && At(ticket, "assigned_to").Obj? ==>
      r == At(At(ticket, "assigned_to"), "fullName")
    ensures (if Truthy(At(ticket, "assignee")) then At(ticket, "assignee") else At(ticket, "assigned_to")).Obj?
      || r == Str("Unassigned")
  {
    var assignee := Or([At(ticket, "assignee"), At(ticket, "assigned_to")]);
    assert Truthy(At(ticket, "assignee")) ==> OrIndex([At(ticket, "assignee"), At(ticket, "assigned_to")]) == 0;
    if assignee.Obj? then At(assignee, "fullName") else Str("Unassigned")
  }

  /** What the webhook reads from the ticket, before any rendering. */
  datatype Summary = Summary(id: Json, subject: Json, status: Json, assignedTo: Json)

  /** The ticket's summary, or the AttributeError a body, `data` entry or
      ticket that is not a dict raises. Nothing else can raise here. */
  function Normalize(body: Json): (r: Result<Summary>)
    ensures Ticket.SelectTicket(body).Err? ==> r == Err(Ticket.SelectTicket(body).fault)
    ensures Ticket.SelectTicket(body).Ok? ==>
      var t := Ticket.SelectTicket(body).value;
      && (!t.Obj? ==> r == Err(NoGet(t)))
      && (t.Obj? ==>
            r == Ok(Summary(At(t, "id"), At(t, "subject"),
                            Ticket.FlattenStatus(At(t, "status")), AssignedTo(t))))
  {
    var t :- Ticket.SelectTicket(body);
    if t.Obj? then
      Ok(Summary(At(t, "id"), At(t, "subject"), Ticket.FlattenStatus(At(t, "status")), AssignedTo(t)))
    else Err(NoGet(t))
  }

  // ---------------------------------------------------------------------
  // Text composition (`teamwork_webhook`, lines 59-61)
  // ---------------------------------------------------------------------

  const Heading := "\U{1F39F}\U{FE0F} *New Ticket Received*"

  /** The message text: the heading, then the id, subject, status and
      assignee, each on a line of its own after its caption. */
  function Text(s: Summary): (r: string)
    ensures Heading + "\n" <= r
    ensures var last := "Assigned To: " + Show(s.assignedTo);
      |r| > |last| && r[|r| - |last| - 1..] == "\n" + last
  {
    var lines := [Heading,
                  "ID: `" + Show(s.id) + "`",
                  "Subject: *" + Show(s.subject) + "*",
                  "Status: `" + Show(s.status) + "`",
                  "Assigned To: " + Show(s.assignedTo)];
    assert Heading + "\n" <= Join(lines, "\n") by {
      JoinEnds(lines, "\n");
    }
    assert var j, last := Join(lines, "\n"), lines[4];
      |j| > |last| && j[|j| - |last| - 1..] == "\n" + last by {
      JoinLast(lines, "\n");
    }
    Join(lines, "\n")
  }

  /** The heading is a single line. */
  lemma HeadingUnbroken()
    ensures '\n' !in Heading
  {
  }

  /** A value without a line break stays on one line between its caption
      and its closing mark. */
  lemma Unbroken(caption: string, value: string, close: string)
    requires '\n' !in caption && '\n' !in value && '\n' !in close
    ensures '\n' !in caption + value + close
  {
  }

  /** When none of the four values spans several lines, the text is exactly
      five lines: the heading, then id, subject, status and assignee in that
      order, each verbatim after its caption. */
  lemma TextLines(s: Summary)
    requires '\n' !in Show(s.id) && '\n' !in Show(s.subject)
    requires '\n' !in Show(s.status) && '\n' !in Show(s.assignedTo)
    ensures Split(Text(s), '\n') ==
      [Heading,
       "ID: `" + Show(s.id) + "`",
       "Subject: *" + Show(s.subject) + "*",
       "Status: `" + Show(s.status) + "`",
       "Assigned To: " + Show(s.assignedTo)]
  {
    var lines := [Heading,
                  "ID: `" + Show(s.id) + "`",
                  "Subject: *" + Show(s.subject) + "*",
                  "Status: `" + Show(s.status) + "`",
                  "Assigned To: " + Show(s.assignedTo)];
    assert Split(Join(lines, ['\n']), '\n') == lines by {
      assert '\n' !in lines[0] by { HeadingUnbroken(); }
      assert '\n' !in lines[1] by { Unbroken("ID: `", Show(s.id), "`"); }
      assert '\n' !in lines[2] by { Unbroken("Subject: *", Show(s.subject), "*"); }
      assert '\n' !in lines[3] by { Unbroken("Status: `", Show(s.status), "`"); }
      assert '\n' !in lines[4] by { Unbroken("Assigned To: ", Show(s.assignedTo), ""); }
      SplitJoin(lines, '\n');
    }
    assert Text(s) == Join(lines, ['\n']);
  }

  // ---------------------------------------------------------------------
  // The webhook handler (`teamwork_webhook`, lines 38-70)
  // ---------------------------------------------------------------------

  /** One webhook request. A falsy body is refused with 400 before anything
      is posted; a wrongly shaped one raises before anything is posted;
      otherwise the text is posted to the incoming webhook and its answer
      relayed. */
  function Webhook(body: Json, post: Call, timestamp: string): (r: Exchange<string>)
    ensures !Truthy(body) ==> r == Exchange(None, Replied(InvalidPayload))
    ensures Truthy(body) ==> (r.posted.Some? <==> Normalize(body).Ok?)
    ensures Truthy(body) && Normalize(body).Err? ==> r.outcome == Raised(Normalize(body).fault)
    ensures r.posted.Some? ==>
      r.posted.value == Text(Normalize(body).value) && r.outcome == Relay(post, timestamp)
    ensures StatusCode(r.outcome) == 200 <==>
      r.posted.Some? && post.Answered? && post.response.code == 200
  {
    if !Truthy(body) then Exchange(None, Replied(InvalidPayload))
    else
      match Normalize(body)
      case Err(f) => Exchange(None, Raised(f))
      case Ok(s) => Exchange(Some(Text(s)), Relay(post, timestamp))
  }

  /** A leading `event` entry in a non-empty body changes nothing: this
      bridge posts the same text, or raises the same exception, whatever
      event triggered it. */
  lemma EventIgnored(event: Json, ms: seq<Member>, post: Call, timestamp: string)
    requires |ms| > 0
    ensures Webhook(Obj([Member("event", event)] + ms), post, timestamp) == Webhook(Obj(ms), post, timestamp)
  {
    var body := Obj([Member("event", event)] + ms);
    Ticket.EventIgnored(event, ms);
    assert Truthy(body) && Truthy(Obj(ms));
    assert Normalize(body) == Normalize(Obj(ms));
  }

  /** A plain-string assignee is not shown: this bridge reports it as
      "Unassigned", and the text says so on its last line. */
  lemma StringAssigneeIsUnassigned(body: Json, post: Call, timestamp: string, ticket: Json)
    requires Truthy(body) && Ticket.SelectTicket(body) == Ok(ticket) && ticket.Obj?
    requires At(ticket, "assignee").Str? && Truthy(At(ticket, "assignee"))
    ensures var r := Webhook(body, post, timestamp);
      r.posted.Some? && Normalize(body).value.assignedTo == Str("Unassigned")
  {
  }

  // ---------------------------------------------------------------------
  // Cleanup (`clean_tickets`, lines 72-104)
  // ---------------------------------------------------------------------

  /** `msg.get("bot_id") or (msg.get("user") == user_id)`: any bot's
      message, or one whose author is the requesting user. A message with
      no `user` matches a request with no `user_id`, both being None. */
  predicate Selected(msg: Json, userId: Option<string>) {
    msg.Obj? && (Truthy(At(msg, "bot_id")) || SameAsForm(At(msg, "user"), userId))
  }

  /** Any bot's message is selected, whoever asked. */
  lemma BotMessageSelected(msg: Json, userId: Option<string>)
    requires msg.Obj? && Truthy(At(msg, "bot_id"))
    ensures Selected(msg, userId)
  {
  }

  /** A message without a bot id is selected exactly when its `user` is
      the requesting user's id. */
  lemma UserMessageSelected(msg: Json, userId: string)
    requires msg.Obj? && !Truthy(At(msg, "bot_id"))
    ensures Selected(msg, Some(userId)) <==> Lookup(msg.members, "user") == Some(Str(userId))
  {
  }

  /** A message with neither a bot id nor an author matches a request
      that carries no `user_id`. */
  lemma AnonymousMessageSelected(msg: Json)
    requires msg.Obj? && !Truthy(At(msg, "bot_id")) && !Has(msg, "user")
    ensures Selected(msg, None)
  {
  }

  /** Handling one message, given chat's answer to its delete should one be
      requested. A selected message is deleted, and the delete counts
      exactly when chat's answer is an HTTP success. The handler raises on
      a message that is not a dict and on a delete request that fails. */
  function Visit(msg: Json, userId: Option<string>, delete: Call): (v: Sweep.Visit)
    ensures !v.Halted? ==> (v.Deleted? <==> Selected(msg, userId))
    ensures v.Deleted? ==> v.ts == At(msg, "ts") && (v.counted <==> delete.Answered? && ResponseOk(delete.response))
    ensures v.Halted? && v.issued.Some? ==> Selected(msg, userId) && v.issued.value == At(msg, "ts")
    ensures v.Halted? <==> !msg.Obj? || (Selected(msg, userId) && delete.Failed?)
    ensures v.Halted? ==> (v.issued.Some? <==> Selected(msg, userId))
    ensures !msg.Obj? ==> v == Sweep.Halted(None, NoGet(msg))
    ensures Selected(msg, userId) && delete.Failed? ==> v == Sweep.Halted(Some(At(msg, "ts")), Unreachable(delete.reason))
  {
    if !msg.Obj? then Sweep.Halted(None, NoGet(msg))
    else if !Selected(msg, userId) then Sweep.Skipped
    else
      var ts := At(msg, "ts");
      match delete
      case Failed(reason) => Sweep.Halted(Some(ts), Unreachable(reason))
      case Answered(resp) => Sweep.Deleted(ts, ResponseOk(resp))
  }

  /** This bridge's handling of one message, as a step of the loop. */
  function Step(userId: Option<string>): (Json, Call) -> Sweep.Visit {
    (m: Json, c: Call) => Visit(m, userId, c)
  }

  /** Reference: the timestamps of the selected messages, in order. */
  function SelectedTimestamps(msgs: seq<Json>, userId: Option<string>): seq<Json>
    decreases |msgs|
  {
    if |msgs| == 0 then []
    else (if Selected(msgs[0], userId) then [At(msgs[0], "ts")] else [])
         + SelectedTimestamps(msgs[1..], userId)
  }

  /** Reference: how many selected messages chat answers with an HTTP
      success when asked to delete them. */
  function AcceptedSelected(msgs: seq<Json>, userId: Option<string>, respond: nat -> Call, from: nat): nat
    decreases |msgs|
  {
    if |msgs| == 0 then 0
    else (if Selected(msgs[0], userId) && respond(from).Answered? && ResponseOk(respond(from).response)
          then 1 else 0)
         + AcceptedSelected(msgs[1..], userId, respond, from + 1)
  }

  /** A pass that raises nothing requests the delete of exactly the
      selected messages, in history order, and counts exactly those chat
      answered with an HTTP success. */
  lemma {:induction false} PassMatchesReference(msgs: seq<Json>, userId: Option<string>, respond: nat -> Call, from: nat)
    ensures var t := Sweep.Run(Sweep.Visits(msgs, Step(userId), respond, from));
      t.fault.None? ==>
        t.issued == SelectedTimestamps(msgs, userId) && t.deleted == AcceptedSelected(msgs, userId, respond, from)
    decreases |msgs|
  {
    if |msgs| > 0 {
      PassMatchesReference(msgs[1..], userId, respond, from + 1);
      var vs := Sweep.Visits(msgs, Step(userId), respond, from);
      assert vs[1..] == Sweep.Visits(msgs[1..], Step(userId), respond, from + 1);
    }
  }

  /** Even in a pass that raises, the deletes requested are the first of
      the selected messages, in history order: nothing else is deleted. */
  lemma {:induction false} IssuedAreSelectedPrefix(msgs: seq<Json>, userId: Option<string>, respond: nat -> Call, from: nat)
    ensures Sweep.Run(Sweep.Visits(msgs, Step(userId), respond, from)).issued <= SelectedTimestamps(msgs, userId)
    decreases |msgs|
  {
    if |msgs| > 0 {
      IssuedAreSelectedPrefix(msgs[1..], userId, respond, from + 1);
      var vs := Sweep.Visits(msgs, Step(userId), respond, from);
      var v := Visit(msgs[0], userId, respond(from));
      assert vs[0] == v && vs[1..] == Sweep.Visits(msgs[1..], Step(userId), respond, from + 1);
      var head := if Selected(msgs[0], userId) then [At(msgs[0], "ts")] else [];
      assert SelectedTimestamps(msgs, userId) == head + SelectedTimestamps(msgs[1..], userId);
      match v {
        case Halted(issued, _) =>
        case Skipped =>
        case Deleted(ts, _) => assert [ts] == head;
      }
    }
  }

  /** Handled one by one, whether or not any raises, the messages ask
      for the deletes of exactly the selected messages, in order: a visit that
      raises has requested its delete exactly when it was one of them. */
  lemma {:induction false} RequestsMatchReference(msgs: seq<Json>, userId: Option<string>, respond: nat -> Call, from: nat)
    ensures Sweep.AllRequested(Sweep.Visits(msgs, Step(userId), respond, from)) == SelectedTimestamps(msgs, userId)
    decreases |msgs|
  {
    if |msgs| > 0 {
      RequestsMatchReference(msgs[1..], userId, respond, from + 1);
      var vs := Sweep.Visits(msgs, Step(userId), respond, from);
      assert vs[1..] == Sweep.Visits(msgs[1..], Step(userId), respond, from + 1);
    }
  }

  /** The pass ends at the first message whose handling raised: the
      deletes requested are those of the selected messages up to and
      including that message, and none after it. */
  lemma IssuedStopAtFirstHalt(msgs: seq<Json>, userId: Option<string>, respond: nat -> Call, from: nat)
    ensures var vs := Sweep.Visits(msgs, Step(userId), respond, from);
      Sweep.Run(vs).issued == SelectedTimestamps(msgs[..Sweep.Reached(vs)], userId)
  {
    var vs := Sweep.Visits(msgs, Step(userId), respond, from);
    var k := Sweep.Reached(vs);
    Sweep.RunStopsAtFirstHalt(vs);
    Sweep.VisitsPrefix(msgs, Step(userId), respond, from, k);
    RequestsMatchReference(msgs[..k], userId, respond, from);
  }

  /** `clean_tickets`: without a bot token it answers 403 before fetching
      or deleting anything; otherwise it fetches the channel's history and
      requests the delete of every selected message, reporting how many
      chat accepted. `respond(i)` is chat's answer to deleting message i. */
  function CleanTickets(token: Option<string>, channel: Option<string>, userId: Option<string>,
                        history: Call, respond: nat -> Call): (r: Sweep.Cleanup)
    ensures Blank(token) ==> r == Sweep.Refused
    ensures !Blank(token) ==> r.query == Some(Sweep.Query(channel, Sweep.HistoryLimit))
    ensures !Blank(token) && Sweep.Messages(history).Err? ==>
      r.tally.issued == [] && r.outcome == Raised(Sweep.Messages(history).fault)
    ensures !Blank(token) && Sweep.Messages(history).Ok? ==>
      var msgs := Sweep.Messages(history).value;
      && r.tally.issued <= SelectedTimestamps(msgs, userId)
      && (r.tally.fault.None? ==>
            && r.tally.issued == SelectedTimestamps(msgs, userId)
            && r.tally.deleted == AcceptedSelected(msgs, userId, respond, 0))
      && r.outcome == Sweep.Conclude(r.tally)
    ensures !Blank(token) && Sweep.Messages(history).Ok? ==>
      var msgs := Sweep.Messages(history).value;
      && (r.tally.fault.None? <==> forall i :: 0 <= i < |msgs| ==> !Step(userId)(msgs[i], respond(i)).Halted?)
      && (r.tally.fault.Some? ==>
            exists i :: 0 <= i < |msgs| && Step(userId)(msgs[i], respond(i)).Halted?
              && r.tally.fault.value == Step(userId)(msgs[i], respond(i)).fault
              && (forall j :: 0 <= j < i ==> !Step(userId)(msgs[j], respond(j)).Halted?)
              && r.tally.issued == SelectedTimestamps(msgs[..i + 1], userId))
    ensures r.tally.deleted <= |r.tally.issued|
  {
    if Blank(token) then Sweep.Refused
    else
      var query := Some(Sweep.Query(channel, Sweep.HistoryLimit));
      match Sweep.Messages(history)
      case Err(f) => Sweep.Cleanup(query, Sweep.Tally([], 0, None), Raised(f))
      case Ok(msgs) =>
        var t := Sweep.Run(Sweep.Visits(msgs, Step(userId), respond, 0));
        PassMatchesReference(msgs, userId, respond, 0);
        IssuedAreSelectedPrefix(msgs, userId, respond, 0);
        Sweep.RunRaisesFirst(msgs, Step(userId), respond);
        IssuedStopAtFirstHalt(msgs, userId, respond, 0);
        Sweep.Cleanup(query, t, Sweep.Conclude(t))
  }
}

=== FILE: ticket.dfy ===
/** The part of webhook payload normalisation both bridges share: finding
    the ticket object in the body and flattening its status. */
module Ticket {
  import opened PyJson

  const Empty := Obj([])

  /** `data.get("ticket") or data.get("data", {}).get("ticket", {})`.

      The top-level ticket is taken when it is truthy; otherwise the ticket
      nested under `data`, or an empty dict when either level is missing.
      A missing ticket is therefore not an error. A body that is not a dict,
      or a `data` entry that is present but not a dict, raises. */
  function SelectTicket(body: Json): (r: Result<Json>)
    ensures !body.Obj? ==> r == Err(NoGet(body))
    ensures body.Obj? && Truthy(At(body, "ticket")) ==> r == Ok(At(body, "ticket"))
    ensures body.Obj? && !Truthy(At(body, "ticket")) && !Has(body, "data") ==>
      r == Ok(Empty)
    ensures body.Obj? && !Truthy(At(body, "ticket")) && Has(body, "data") ==>
      var nested := At(body, "data");
      (nested.Obj? ==> r == Ok(AtOr(nested, "ticket", Empty))) &&
      (!nested.Obj? ==> r == Err(NoGet(nested)))
  {
    if !body.Obj? then Err(NoGet(body))
    else if Truthy(At(body, "ticket")) then Ok(At(body, "ticket"))
    else GetOr(AtOr(body, "data", Empty), "ticket", Empty)
  }

  /** A leading `event` entry plays no part in finding the ticket. */
  lemma EventIgnored(event: Json, ms: seq<Member>)
    ensures SelectTicket(Obj([Member("event", event)] + ms)) == SelectTicket(Obj(ms))
  {
    LookupPrepend(Member("event", event), ms, "ticket");
    LookupPrepend(Member("event", event), ms, "data");
  }

  /** `status.get("name") if isinstance(status, dict) else status`: the
      status object's name (None when it has none); any other value,
      None included, is kept as it is. */
  function FlattenStatus(status: Json): (r: Json)
    ensures status.Obj? && Has(status, "name") ==> Lookup(status.members, "name") == Some(r)
    ensures status.Obj? && !Has(status, "name") ==> r == Null
    ensures !status.Obj? ==> r == status
  {
    if status.Obj? then At(status, "name") else status
  }
}
